=== FILE: README.md ===
# mailpeter core, modelled in Dafny

mailpeter is a contact-relay service. It accepts a message over HTTP and mails it through a
configured SMTP account, either back to the sender's own address (direct mode) or to the
recipient groups configured for a *direction* (routed mode). This project models the service's
decision logic as immutable datatypes and pure functions and proves properties about them:

- `Mailer` (src/utils/mailer.rs): the `Msg` record and its default, the content-type rule, the
  recipient routing, and `send` up to the hand-off to the transport. It also fixes the order of
  `send`'s error outcomes. The routing loop is also written as a method, `RouteRecipients`, proved
  equal to the functional definition.
- `Routes` (src/api/routes.rs): the JSON route, with its direction always taken from the path.
  The multipart route is a fold over a finite sequence of form parts. Send results map to the
  success text or a 500.
- `IpExtractor` (src/utils/ip_extrator.rs): the rate limiter's key. It uses the forwarded address
  only when the peer is the trusted proxy, with a socket-address-then-bare-IP parse. The
  rate-exceeded response is fixed.
- `Errors` (src/utils/errors.rs): `ServiceError` with its `Display` and debug renderings, the
  status and JSON body of each variant, and every `From` conversion.
- `Config` (src/utils/config.rs): the configuration record, the case-insensitive log-level
  decoder, the config-file search order and the error mapping of `read_config`.
- `Listen` (src/main.rs): the `--listen` argument is split at its first `:` and the port is
  read as a `u16`, defaulting to 0.
- `Http` and `Base` are shared helpers: the JSON string encoding that `HttpResponse::json`
  applies (with a decoder and a round-trip proof), plus `Option`, `Result`, `byte` and `u16`.

Foreign code is passed in as function-typed parameters:

- the HTML parser `Dom::parse`;
- the mailbox parser;
- lettre's body builder, relay builder and network send;
- `String::from_utf8_lossy`;
- the socket-address and IP parsers;
- the filesystem checks and reads;
- the TOML parser.

Each property therefore holds for every behaviour of that code.

Facts about the code that the model keeps:

- The multipart route calls `send` with `Some(direction)`, so it composes in routed mode.
- `send` never reads the configured `port` (`Mailer.SendIgnoresPort`).
- The entry point registers only the JSON route. The multipart handler exists but is not mounted; it is still modelled.
- The entry point installs no rate-limiter middleware and puts no proxy address in the app data, so `IpExtractor` is not reached in this program either. It is still modelled, with the proxy taken as an optional value.

`routes.rs` builds its message with five arguments, the last one being the collected files. The
`Msg::new` in `mailer.rs` takes four. The model keeps the route's five-field record (`Upload`)
and passes `send` the four message fields, because no attachment handling exists in `send`.

## Model

| member | source | states |
|---|---|---|
| Http.UnquoteQuote | src/utils/errors.rs:28-38 | the JSON body written for any message decodes back to exactly that message |
| Http.QuoteInjective | src/utils/errors.rs:32-37 | two messages produce the same JSON body only if they are equal |
| Http.Quote | src/utils/errors.rs:30-36 | `HttpResponse::json` on a string: the document starts and ends with a double quote; by `Http.UnquoteQuote` and `Http.QuoteInjective` its contents decode back to the message, and distinct messages give distinct bodies (weaker, see Left out) |
| Errors.ParseDisplayRoundTrip | src/utils/errors.rs:8-24 | reading a `Display` text back gives the error it was rendered from: the text names the variant and carries the whole message |
| Errors.DisplayInjective | src/utils/errors.rs:8-24 | distinct errors never have the same `Display` text |
| Errors.Display | src/utils/errors.rs:8-24 | no contract of its own: the `#[display]` texts; `Errors.ParseDisplayRoundTrip` and `Errors.DisplayInjective` characterise it |
| Errors.Debug | src/utils/errors.rs:44-46 | the `{:?}` text of an error starts with its variant name (weaker, see Left out) |
| Errors.Status | src/utils/errors.rs:28-38 | InternalServerError, BadRequest, Conflict, NoContent and ServiceUnavailable each map to their own RFC 9110 code: 500, 400, 409, 204, 503 (in both directions) |
| Errors.ErrorResponse | src/utils/errors.rs:26-40 | an `application/json` response with the variant's status; the body decodes to "Internal Server Error. Please try later." for a 500 and to the carried message otherwise |
| Errors.StatusClasses | src/utils/errors.rs:28-38 | only InternalServerError and ServiceUnavailable are 5xx; BadRequest and Conflict are 4xx; NoContent is 2xx |
| Errors.ErrorResponseInjective | src/utils/errors.rs:28-38 | two errors with the same response are the same error: the status fixes the variant and the JSON body fixes the message |
| Errors.FromForeign | src/utils/errors.rs:50-120 | io errors become NoContent(text); multipart errors become BadRequest(text); SMTP and address errors become Conflict(text); toml, logger, file-transport, lettre and address-parse errors become InternalServerError; no conversion yields ServiceUnavailable |
| Errors.ForeignMessageReachesClient | src/utils/errors.rs:50-120 | a converted library error reaches the client as its own text, unless the conversion chose the fixed 500 apology |
| Errors.ToIoError | src/utils/errors.rs:42-48 | converting any ServiceError to an io::Error gives kind Other, with a message that starts with the variant name |
| Config.StringToLogLevel | src/utils/config.rs:39-54 | success means the lower-cased input is that level's name; failure is "Log level not exists!" and happens exactly when the lower-cased input names no level |
| Config.LogLevelIgnoresCase | src/utils/config.rs:45 | two inputs that differ only in ASCII letter case decode alike |
| Config.LogLevelFromName | src/utils/config.rs:46-51 | debug, error, info, trace, warning and off, in any case mix, decode to Debug, Error, Info, Trace, Warn and Off |
| Config.WarnIsRejected | src/utils/config.rs:50-52 | "warn", in any case mix, is rejected with "Log level not exists!" |
| Config.ConfigPath | src/utils/config.rs:56-70 | an explicit path is returned unchanged and unchecked; otherwise /etc/mailpeter/mailpeter.toml if it is a file, else mailpeter.toml if it is a file, else ./assets/mailpeter.toml (each in both directions) |
| Config.ConfigPathIsFirstFile | src/utils/config.rs:61-69 | without an explicit path the result is the first existing file of the two search candidates, else the unchecked asset path |
| Config.DecodeConfig | src/utils/config.rs:9-37 | decoding fails exactly when the log level is invalid; otherwise the level is the decoded one, every other field (log keep count, log size, log-to-file, smtp, port, user, password, starttls) is copied from the file, and every recipient group keeps its direction and mails and gets an empty subject and message |
| Config.ReadConfig | src/utils/config.rs:72-77 | a read failure gives NoContent(error text); a TOML failure, including a bad log level, gives InternalServerError; a file that reads and decodes gives exactly the decoded settings, and success happens only then |
| Config.BadLogLevelIsInternalError | src/utils/config.rs:45-52 | a file that parses but names an unknown log level makes `read_config` fail with InternalServerError |
| Config.ReadConfigGroupsHaveEmptyText | src/utils/config.rs:33-36 | every recipient group of a configuration `read_config` returns has an empty subject and message |
| Mailer.ContentTypeOf | src/utils/mailer.rs:30-41 | plain text exactly when the body fails to parse or parses to a single text node; HTML exactly when it parses to no children, several children, or one element or comment |
| Mailer.Resolve | src/utils/mailer.rs:66-72 | no contract of its own: the mails of the matching groups; `Mailer.ResolveSnoc` fixes the order (configuration order, then each group's own order), and `Mailer.ResolveMembership`, `Mailer.ResolveAppend` and `Mailer.ResolveNoMatch` characterise it further |
| Mailer.ParseAll | src/utils/mailer.rs:68-70 | no contract of its own: the `?`-parse of a list of addresses; `Mailer.ParseAllSpec` characterises it |
| Mailer.ResolveAppend | src/utils/mailer.rs:66-72 | the routed list of a split configuration is the two halves' lists joined, so order follows configuration order |
| Mailer.ResolveSnoc | src/utils/mailer.rs:66-72 | adding one more group appends exactly that group's mails, in its own order, when its direction matches, and nothing otherwise |
| Mailer.ResolveMembership | src/utils/mailer.rs:66-72 | a mail is routed to exactly when some group whose direction equals the message's lists it |
| Mailer.ResolveNoMatch | src/utils/mailer.rs:66-72 | a direction no group carries routes to nobody |
| Mailer.ParseAllSpec | src/utils/mailer.rs:68-70 | the parse succeeds exactly when every address parses, and then yields each one's mailbox in order; otherwise it fails with the error of the first address that does not parse |
| Mailer.ParseAllAppend | src/utils/mailer.rs:66-72 | parsing a concatenation fails with the first part's error, else the second part's, else joins the results |
| Mailer.ParseAllFailureIsFinal | src/utils/mailer.rs:69 | the `?` on a failing address ends the parse: whatever addresses follow, the outcome is that failure |
| Mailer.Compose | src/utils/mailer.rs:56-73 | `from` is the parsed configured user; the subject and body are copied; the content type is `ContentTypeOf`. Direct mode: exactly one `To` (the parsed `mail`) and no reply-to. Routed mode: reply-to is the parsed `mail` and `To` is the parsed routed list. Every failure is a Conflict |
| Mailer.ComposeFailsOnFirstBadAddress | src/utils/mailer.rs:57-72 | composition fails exactly when one of the sender, `mail` or a routed mail fails to parse, and then with the Conflict of the first one in that order |
| Mailer.DirectModeIgnoresGroups | src/utils/mailer.rs:61-62 | in direct mode the configured groups do not affect the outcome |
| Mailer.UnmatchedDirectionHasNoRecipients | src/utils/mailer.rs:63-73 | a direction matching no group still composes, with reply-to set and an empty `To` list |
| Mailer.RoutedRecipientsComeFromMatchingGroups | src/utils/mailer.rs:66-72 | every routed `To` mailbox is the parse of a mail from a group with the message's direction |
| Mailer.Send | src/utils/mailer.rs:55-95 | the outcomes in order: an address error (Conflict); a body-build failure (InternalServerError); a relay error (Conflict with the SMTP text); a send failure (Conflict "Could not send mail: " + text); otherwise Ok |
| Mailer.NoDeliveryBeforeBody | src/utils/mailer.rs:75-92 | if composition or the body build fails, the result is an error whatever the network send would do |
| Mailer.SendIgnoresPort | src/utils/mailer.rs:76-84 | the configured port never affects `send` |
| Mailer.DefaultMsgIsDirect | src/utils/mailer.rs:44-53 | the default message is in direct mode, is sent to my@mail.org and has subject "My Subject" |
| Mailer.SendMail | src/utils/mailer.rs:55-95 | the builder-style method with its nested routing loop has the same outcome as `Send` on every input |
| Mailer.RouteRecipients | src/utils/mailer.rs:66-72 | the nested loop over groups and mails returns the ordered parse of the routed list, or the first address error |
| Mailer.ParseGroupMails | src/utils/mailer.rs:68-70 | the inner loop over one group's mails extends an already parsed prefix to the ordered parse of prefix + mails, or stops at the first address error |
| Mailer.PrefixFailureIsFinal | src/utils/mailer.rs:66-72 | once an address in the groups seen so far fails to parse, the later groups cannot change the outcome: the routed parse fails with that first error |
| Routes.ReadAllAppend | src/api/routes.rs:58-66 | splitting a file field's chunks anywhere joins the two halves' buffers; with `Routes.ReadAllSingle` this makes the buffer all its chunks' bytes joined in order |
| Routes.ReadAllSingle | src/api/routes.rs:60-64 | a single chunk's buffer is exactly that chunk's bytes, so together with `Routes.ReadAllAppend` every buffer is all its chunks' bytes joined in order |
| Routes.Step | src/api/routes.rs:38-72 | no contract of its own: one iteration of the multipart loop; `Routes.StepMatchesReference` characterises it |
| Routes.IntakeFrom | src/api/routes.rs:37-74 | no contract of its own: the multipart loop from a given form; `Routes.IntakeFromMatchesReference` characterises it |
| Routes.Intake | src/api/routes.rs:32-74 | no contract of its own: the loop from empty fields and no files; `Routes.IntakeResult` characterises it |
| Routes.PostMail | src/api/routes.rs:11-25 | no contract of its own: `post_mail`; `Routes.PostMailDirectionFromPath` and `Routes.PostMailResponses` characterise it |
| Routes.PutMailAttachment | src/api/routes.rs:27-91 | no contract of its own: `put_mail_attachment`; `Routes.PutMailAttachmentOutcome` and `Routes.PutMailAttachmentResponses` characterise it |
| Routes.StepMatchesReference | src/api/routes.rs:39-71 | one loop iteration fails exactly with the part's fault; otherwise it applies the part's text setting and file entry and changes nothing else |
| Routes.IntakeFromMatchesReference | src/api/routes.rs:37-74 | the fold fails exactly when some part is faulty, with the first fault; otherwise each text field holds the last value set for it (or its starting value), and the files are every file entry in arrival order |
| Routes.TextValueIsLastSetting | src/api/routes.rs:41-55 | the value of mail, subject or text is the first chunk of the last field of that name that has a chunk; no later field sets it |
| Routes.AttachmentsAppend | src/api/routes.rs:56-66 | file entries keep arrival order across any split of the stream |
| Routes.IntakeResult | src/api/routes.rs:32-74 | after a successful intake, mail, subject and text default to "" and otherwise hold the last value sent; the files are exactly the file entries |
| Routes.UnknownFieldIsConflict | src/api/routes.rs:67-70 | a named field that is not mail, subject or text and has no filename ends intake with Conflict("Unknown form data: " + name), unless an earlier part failed |
| Routes.PostMailDirectionFromPath | src/api/routes.rs:16-24 | the JSON route's outcome ignores any direction in the body; it is "Send success!" exactly when `send` succeeds, and InternalServerError otherwise |
| Routes.PutMailAttachmentOutcome | src/api/routes.rs:76-90 | a failed intake is returned unchanged whatever the transport does; otherwise the form is sent in routed mode with the path's direction, and a send error becomes InternalServerError |
| Routes.PostMailResponses | src/api/routes.rs:18-24 | the JSON route answers 200 "Send success!" or 500 with the fixed apology, never a send error's text |
| Routes.PutMailAttachmentResponses | src/api/routes.rs:84-90 | the multipart route answers 200, 500 with the apology, 400 carrying a part's stream error, or 409 naming an unknown field |
| IpExtractor.ProxyDefaultsToUnspecified | src/utils/ip_extrator.rs:30-33 | with no configured proxy only a peer at 0.0.0.0 counts as proxied; with one configured, exactly a peer at that address |
| IpExtractor.ParseKeyFallback | src/utils/ip_extrator.rs:47-49 | an address string gives a key if either the socket form or the bare IP form parses; the socket form wins when both do |
| IpExtractor.ParseKey | src/utils/ip_extrator.rs:47-49 | no contract of its own: socket form, then bare IP; `IpExtractor.ParseKeyFallback` characterises it |
| IpExtractor.KeyFrom | src/utils/ip_extrator.rs:40-55 | a key exists exactly when the source string is present and parses; any failure carries the path's message |
| IpExtractor.Extract | src/utils/ip_extrator.rs:28-75 | a request from the trusted proxy is keyed by the forwarded address; every other request, including one with no peer, is keyed by the connection's peer address |
| IpExtractor.ExtractPaths | src/utils/ip_extrator.rs:38-74 | a missing or unparsable address on the proxy path is "Could not extract real IP address from request"; on the direct path it is "Could not extract peer IP address from request" |
| IpExtractor.SpoofedHeaderIgnored | src/utils/ip_extrator.rs:57-73 | for a peer that is not the trusted proxy, the forwarded address does not affect the key |
| IpExtractor.NoPeerIsDirect | src/utils/ip_extrator.rs:57-58 | a request without a peer IP takes the direct path |
| IpExtractor.PathsConverge | src/utils/ip_extrator.rs:40-73 | a client forwarded by the proxy and the same client connecting directly get the same key |
| IpExtractor.ProxyScenario | src/utils/ip_extrator.rs:38-73 | with trusted proxy 203.0.113.9, a request forwarded for 198.51.100.7 and that client connecting directly with a forged header are both keyed 198.51.100.7 |
| IpExtractor.RateLimitHidesWait | src/utils/ip_extrator.rs:79-93 | the rate-exceeded response is always plain-text "Too many requests" on the given status, whatever the wait time |
| IpExtractor.ExceedRateLimitResponse | src/utils/ip_extrator.rs:79-93 | no contract of its own: `exceed_rate_limit_response`; `IpExtractor.RateLimitHidesWait` characterises it |
| Listen.SplitOnce | src/main.rs:25 | no result exactly when there is no separator; otherwise before + separator + after is the input, and before has no separator |
| Listen.SplitOnceUnique | src/main.rs:25 | the split at the first separator is the only one whose left part has no separator |
| Listen.ParseU16 | src/main.rs:36 | a port is read exactly when the text is an optional '+' followed by one or more ASCII digits (leading zeros allowed) with a value below 65536, and it is that value |
| Listen.ParseU16LeadingZeros | src/main.rs:36 | "0080" reads as 80 and "+0" as 0 |
| Listen.ParseU16Decimal | src/main.rs:36 | every u16 written in decimal, with or without a leading '+', reads back as itself |
| Listen.PortOrDefault | src/main.rs:36 | no contract of its own: `parse().unwrap_or_default()`; `Listen.ListenPlan`, `Listen.BadPortIsZero` and `Listen.OverflowPortIsZero` characterise it |
| Listen.ListenPlan | src/main.rs:25-43 | no server exactly when the argument (absent counts as "") has no ':'; otherwise the address has no ':' and address + ':' + port text is the argument, with the port read from that text or 0 |
| Listen.NoListenWithoutColon | src/main.rs:25-43 | an absent argument or one without ':' starts no server |
| Listen.ListenSplitsAtFirstColon | src/main.rs:25-36 | the address is everything before the first ':' and the port comes from everything after it |
| Listen.ListenWithPort | src/main.rs:25-36 | host:port with a decimal port is served on that host and port |
| Listen.BadPortIsZero | src/main.rs:36 | a non-numeric port text gives port 0 |
| Listen.OverflowPortIsZero | src/main.rs:36 | a port text above 65535 gives port 0 |
| Listen.Ipv6ListenIsCutInsideBrackets | src/main.rs:25-36 | "[::1]:8989" is cut at its first ':', so `bind` is called with address "[" and port 0 |

## Left out

- The SMTP connection, STARTTLS versus implicit-TLS relay setup and credentials are a network client. `send` models them as two abstract outcomes: building the relay and delivering.
- What `MessageBuilder::body` accepts is lettre's own rule. It is the parameter `buildBody`, so it is not stated whether an empty `To` list is rejected there.
- `Dom::parse`, mailbox parsing, `String::from_utf8_lossy`, `SocketAddr::from_str` and `IpAddr::from_str` are foreign parsers and are uninterpreted parameters. `IpAddr` is only a key here; its text form is not modelled.
- How `realip_remote_addr` reads the Forwarded and X-Forwarded-For headers is library code, and so is the token-bucket limiter with its shared state. The extractor receives the header's result as a value.
- The actix request lifecycle, async scheduling, logging calls and `HttpServer` startup and binding are runtime plumbing, apart from the listen split.
- Filesystem checks and reads in `config_path` and `read_config` are parameters (`isFile`, `readFile`). TOML deserialisation is a parameter producing the raw record.
- src/utils/logging.rs and src/utils/arg_parser.rs are not part of this model. They hold logger configuration and a declarative argument struct, with no decision logic.
- Http.Quote: the contract and lemmas fix the decoded value of the JSON body, not serde_json's particular escape bytes (for example whether `/` is written escaped); only the definition itself fixes those.
- Errors.Debug: escapes the named characters (`\0`, `\t`, `\r`, `\n`, `\\`, `"`) and ASCII control characters exactly. Other non-printable or grapheme-extending Unicode characters are copied verbatim, whereas Rust writes `\u{…}`, because that needs Unicode property tables.
- Errors.ToIoError: states the kind and the message's leading variant name, not the whole debug text, for the same reason.
- Config.StringToLogLevel: lower-cases ASCII only, while Rust's `to_lowercase` is Unicode-wide. The accepted inputs are the same: the only non-ASCII character that lower-cases to ASCII is the Kelvin sign (to `k`), and no level name contains `k`.
- Routes: a chunk error inside a text field after its first chunk is never read by the route, so it is not modelled. Errors that actix may raise when skipping an unread field are not modelled either.
- The HTTP/1 encoder's suppression of a 204 body is server behaviour. `ErrorResponse` describes the body the handler sets.

=== FILE: base.dfy ===
/** Shared vocabulary: Rust's `Option` and `Result`, and the fixed-width
    integers the service handles (`u8` bytes, `u16` ports). */
module Base {

  /** Rust's `Option<T>`. */
  datatype Option<+T> = None | Some(value: T) {

    /** The value, or `default` when absent (`unwrap_or`). */
    function GetOr(default: T): (v: T) {
      match this
      case Some(v) => v
      case None => default
    }
  }

  /** Rust's `Result<T, E>`; usable with `:-` the way Rust uses `?`. */
  datatype Result<+T, +E> = Ok(value: T) | Err(error: E) {

    predicate IsFailure() {
      Err?
    }

    function PropagateFailure<U>(): (r: Result<U, E>)
      requires Err?
    {
      Err(error)
    }

    function Extract(): (v: T)
      requires Ok?
    {
      value
    }
  }

  /** An octet, Rust's `u8`. */
  newtype byte = x: int | 0 <= x < 0x100

  /** Rust's `u16`, the type of a TCP port. */
  newtype u16 = x: int | 0 <= x < 0x1_0000
}

=== FILE: config.dfy ===
/** Configuration (src/utils/config.rs): the record the service reads, the
    case-insensitive log-level decoder, the config-file search order and the
    error mapping of `read_config`. The filesystem and the TOML parser are
    parameters. */
module Config {
  import opened Base
  import Errors

  datatype LevelFilter = Off | Error | Warn | Info | Debug | Trace

  /** One recipient group. `subject` and `message` are skipped by the
      deserializer and so always hold the empty default. */
  datatype Recipients = Recipients(direction: string, mails: seq<string>, subject: string, message: string)

  datatype Mail = Mail(
    smtp: string,
    port: u16,
    user: string,
    password: string,
    starttls: bool,
    recipients: seq<Recipients>)

  /** The service settings (`Config` in the source). */
  datatype Settings = Settings(
    logKeepCount: int,
    logLevel: LevelFilter,
    logSizeMb: nat,
    logToFile: bool,
    mail: Mail)

  /** What the TOML parser yields before the custom field decoders run:
      the log level is still a string and recipient groups have only the
      fields the file can set. */
  datatype RawRecipients = RawRecipients(direction: string, mails: seq<string>)

  datatype RawMail = RawMail(
    smtp: string,
    port: u16,
    user: string,
    password: string,
    starttls: bool,
    recipients: seq<RawRecipients>)

  datatype RawConfig = RawConfig(
    logKeepCount: int,
    logLevel: string,
    logSizeMb: nat,
    logToFile: bool,
    mail: RawMail)

  const LogLevelError: string := "Log level not exists!"

  /** ASCII lower-casing of one character. */
  function LowerChar(c: char): (d: char)
    ensures 'A' <= c <= 'Z' ==> d as int == c as int + 32
    ensures !('A' <= c <= 'Z') ==> d == c
  {
    if 'A' <= c <= 'Z' then (c as int + 32) as char else c
  }

  function Lower(s: string): (r: string)
    ensures |r| == |s|
    ensures forall i :: 0 <= i < |s| ==> r[i] == LowerChar(s[i])
  {
    if |s| == 0 then "" else [LowerChar(s[0])] + Lower(s[1..])
  }

  /** Two strings equal up to ASCII letter case. */
  predicate SameIgnoringCase(s: string, t: string)
  {
    |s| == |t| && forall i :: 0 <= i < |s| ==> LowerChar(s[i]) == LowerChar(t[i])
  }

  /** The one spelling (in lower case) that selects each level. */
  function LevelName(l: LevelFilter): (name: string)
  {
    match l
    case Off => "off"
    case Error => "error"
    case Warn => "warning"
    case Info => "info"
    case Debug => "debug"
    case Trace => "trace"
  }

  /** `string_to_log_level`: the level whose name the lower-cased input is,
      or the error text for anything else. */
  function StringToLogLevel(s: string): (r: Result<LevelFilter, string>)
    ensures r.Ok? ==> Lower(s) == LevelName(r.value)
    ensures r.Err? ==> r.error == LogLevelError && forall l :: Lower(s) != LevelName(l)
  {
    var k := Lower(s);
    if k == "debug" then Ok(Debug)
    else if k == "error" then Ok(Error)
    else if k == "info" then Ok(Info)
    else if k == "trace" then Ok(Trace)
    else if k == "warning" then Ok(Warn)
    else if k == "off" then Ok(Off)
    else Err(LogLevelError)
  }

  /** Decoding ignores letter case. */
  lemma LogLevelIgnoresCase(s: string, t: string)
    requires SameIgnoringCase(s, t)
    ensures StringToLogLevel(s) == StringToLogLevel(t)
  {
    assert Lower(s) == Lower(t);
  }

  /** Every level is reachable from its name, in any mix of cases. */
  lemma LogLevelFromName(l: LevelFilter, s: string)
    requires SameIgnoringCase(s, LevelName(l))
    ensures StringToLogLevel(s) == Ok(l)
  {
    LogLevelIgnoresCase(s, LevelName(l));
  }

  /** The short form "warn" (in any case) is not accepted. */
  lemma WarnIsRejected(s: string)
    requires SameIgnoringCase(s, "warn")
    ensures StringToLogLevel(s) == Err(LogLevelError)
  {
    LogLevelIgnoresCase(s, "warn");
  }

  const EtcPath: string := "/etc/mailpeter/mailpeter.toml"
  const LocalPath: string := "mailpeter.toml"
  const AssetsPath: string := "./assets/mailpeter.toml"

  /** The first candidate that is a file, or `fallback` (never checked). */
  function FirstFile(candidates: seq<string>, isFile: string -> bool, fallback: string): (p: string)
  {
    if |candidates| == 0 then fallback
    else if isFile(candidates[0]) then candidates[0]
    else FirstFile(candidates[1..], isFile, fallback)
  }

  /** `config_path`: an explicit path wins unchecked; otherwise the system
      path if it is a file, then the working-directory file, then the
      bundled asset path, which is not checked. */
  function ConfigPath(path: Option<string>, isFile: string -> bool): (p: string)
    ensures path.Some? ==> p == path.value
    ensures path.None? ==> p in {EtcPath, LocalPath, AssetsPath}
    ensures path.None? ==> (p == EtcPath <==> isFile(EtcPath))
    ensures path.None? ==> (p == LocalPath <==> !isFile(EtcPath) && isFile(LocalPath))
    ensures path.None? ==> (p == AssetsPath <==> !isFile(EtcPath) && !isFile(LocalPath))
  {
    if path.Some? then path.value
    else if isFile(EtcPath) then EtcPath
    else if isFile(LocalPath) then LocalPath
    else AssetsPath
  }

  /** The search order is "first existing file of the system path and the
      working-directory file, else the asset path". */
  lemma ConfigPathIsFirstFile(isFile: string -> bool)
    ensures ConfigPath(None, isFile) == FirstFile([EtcPath, LocalPath], isFile, AssetsPath)
  {
    var cs := [EtcPath, LocalPath];
    assert cs[1..] == [LocalPath];
    assert cs[1..][1..] == [];
    if !isFile(EtcPath) {
      assert FirstFile(cs, isFile, AssetsPath) == FirstFile([LocalPath], isFile, AssetsPath);
    }
  }

  /** Deserialisation of one recipient group: the skipped fields default to "". */
  function DecodeRecipients(raw: RawRecipients): (r: Recipients)
  {
    Recipients(raw.direction, raw.mails, "", "")
  }

  function DecodeAllRecipients(raws: seq<RawRecipients>): (rs: seq<Recipients>)
    ensures |rs| == |raws|
    ensures forall i :: 0 <= i < |raws| ==> rs[i] == DecodeRecipients(raws[i])
  {
    if |raws| == 0 then [] else [DecodeRecipients(raws[0])] + DecodeAllRecipients(raws[1..])
  }

  /** The field decoders run after parsing: the log level through
      `StringToLogLevel`, whose error becomes a TOML error. */
  function DecodeConfig(raw: RawConfig): (r: Result<Settings, string>)
    ensures r.Ok? <==> StringToLogLevel(raw.logLevel).Ok?
    ensures r.Err? ==> r.error == LogLevelError
    ensures r.Ok? ==> r.value.logLevel == StringToLogLevel(raw.logLevel).value
    ensures r.Ok? ==> && r.value.logKeepCount == raw.logKeepCount
                      && r.value.logSizeMb == raw.logSizeMb
                      && r.value.logToFile == raw.logToFile
    ensures r.Ok? ==> && r.value.mail.smtp == raw.mail.smtp
                      && r.value.mail.port == raw.mail.port
                      && r.value.mail.user == raw.mail.user
                      && r.value.mail.password == raw.mail.password
                      && r.value.mail.starttls == raw.mail.starttls
    ensures r.Ok? ==> |r.value.mail.recipients| == |raw.mail.recipients|
    ensures r.Ok? ==> forall i :: 0 <= i < |raw.mail.recipients| ==>
                        r.value.mail.recipients[i].direction == raw.mail.recipients[i].direction
                        && r.value.mail.recipients[i].mails == raw.mail.recipients[i].mails
                        && r.value.mail.recipients[i].subject == ""
                        && r.value.mail.recipients[i].message == ""
  {
    var level :- StringToLogLevel(raw.logLevel);
    var m := raw.mail;
    Ok(Settings(raw.logKeepCount, level, raw.logSizeMb, raw.logToFile,
              Mail(m.smtp, m.port, m.user, m.password, m.starttls, DecodeAllRecipients(m.recipients))))
  }

  /** `read_config`: read the file chosen by `ConfigPath`, then parse it.
      `readFile` stands for `fs::read_to_string` (its error text on failure)
      and `parseToml` for the TOML parser (its error text on failure). */
  function ReadConfig(
    path: Option<string>,
    isFile: string -> bool,
    readFile: string -> Result<string, string>,
    parseToml: string -> Result<RawConfig, string>): (r: Result<Settings, Errors.ServiceError>)
    ensures readFile(ConfigPath(path, isFile)).Err? ==>
              r == Err(Errors.NoContent(readFile(ConfigPath(path, isFile)).error))
    ensures readFile(ConfigPath(path, isFile)).Ok? && parseToml(readFile(ConfigPath(path, isFile)).value).Err? ==>
              r == Err(Errors.InternalServerError)
    ensures readFile(ConfigPath(path, isFile)).Ok? && parseToml(readFile(ConfigPath(path, isFile)).value).Ok? ==>
              var raw := parseToml(readFile(ConfigPath(path, isFile)).value).value;
              && (DecodeConfig(raw).Ok? ==> r == Ok(DecodeConfig(raw).value))
              && (DecodeConfig(raw).Err? ==> r == Err(Errors.InternalServerError))
    ensures r.Ok? <==> && readFile(ConfigPath(path, isFile)).Ok?
                       && parseToml(readFile(ConfigPath(path, isFile)).value).Ok?
                       && DecodeConfig(parseToml(readFile(ConfigPath(path, isFile)).value).value).Ok?
  {
    var contents :- ReadFile(ConfigPath(path, isFile), readFile);
    match parseToml(contents)
    case Err(m) => Err(Errors.FromForeign(Errors.TomlError(m)))
    case Ok(raw) =>
      match DecodeConfig(raw)
      case Err(m) => Err(Errors.FromForeign(Errors.TomlError(m)))
      case Ok(c) => Ok(c)
  }

  /** `fs::read_to_string(…)?`: an I/O error converts through `From`. */
  function ReadFile(p: string, readFile: string -> Result<string, string>): (r: Result<string, Errors.ServiceError>)
    ensures readFile(p).Ok? ==> r == Ok(readFile(p).value)
    ensures readFile(p).Err? ==> r == Err(Errors.NoContent(readFile(p).error))
  {
    match readFile(p)
    case Ok(s) => Ok(s)
    case Err(m) => Err(Errors.FromForeign(Errors.IoError(m)))
  }

  /** A file that parses but names an unknown log level is reported as an
      internal error, like any other TOML error, and never as a config. */
  lemma BadLogLevelIsInternalError(
    path: Option<string>,
    isFile: string -> bool,
    readFile: string -> Result<string, string>,
    parseToml: string -> Result<RawConfig, string>)
    requires readFile(ConfigPath(path, isFile)).Ok?
    requires parseToml(readFile(ConfigPath(path, isFile)).value).Ok?
    requires StringToLogLevel(parseToml(readFile(ConfigPath(path, isFile)).value).value.logLevel).Err?
    ensures ReadConfig(path, isFile, readFile, parseToml) == Err(Errors.InternalServerError)
  {
  }

  /** Every configuration `read_config` returns has empty group subjects and messages. */
  lemma ReadConfigGroupsHaveEmptyText(
    path: Option<string>,
    isFile: string -> bool,
    readFile: string -> Result<string, string>,
    parseToml: string -> Result<RawConfig, string>)
    requires ReadConfig(path, isFile, readFile, parseToml).Ok?
    ensures forall g :: g in ReadConfig(path, isFile, readFile, parseToml).value.mail.recipients ==>
              g.subject == "" && g.message == ""
  {
    var contents := readFile(ConfigPath(path, isFile)).value;
    var raw := parseToml(contents).value;
    assert DecodeConfig(raw).Ok?;
  }
}

=== FILE: errors.dfy ===
/** `ServiceError` (src/utils/errors.rs): the service's error taxonomy, its
    `Display` text, the HTTP response each variant produces, and the
    conversions from the errors of the libraries the service calls. */
module Errors {
  import opened Base
  import opened Http

  datatype ServiceError =
    | InternalServerError
    | BadRequest(message: string)
    | Conflict(message: string)
    | NoContent(message: string)
    | ServiceUnavailable(message: string)

  /** Fixed body of every 500 response; the variant carries no message. */
  const InternalMessage: string := "Internal Server Error. Please try later."

  /** Variant name, as `#[derive(Debug)]` and the `Display` prefixes spell it. */
  function VariantName(e: ServiceError): (name: string)
  {
    match e
    case InternalServerError => "InternalServerError"
    case BadRequest(_) => "BadRequest"
    case Conflict(_) => "Conflict"
    case NoContent(_) => "NoContent"
    case ServiceUnavailable(_) => "ServiceUnavailable"
  }

  /** The `Display` text (`#[display(fmt = …)]`). */
  function Display(e: ServiceError): (s: string)
  {
    if e.InternalServerError? then "Internal Server Error" else VariantName(e) + ": " + e.message
  }

  predicate HasPrefix(s: string, p: string)
  {
    |p| <= |s| && s[..|p|] == p
  }

  /** Reads a `Display` text back; `None` for text no variant renders. */
  function ParseDisplay(s: string): (r: Option<ServiceError>)
  {
    if s == "Internal Server Error" then Some(InternalServerError)
    else if HasPrefix(s, "BadRequest: ") then Some(BadRequest(s[12..]))
    else if HasPrefix(s, "Conflict: ") then Some(Conflict(s[10..]))
    else if HasPrefix(s, "NoContent: ") then Some(NoContent(s[11..]))
    else if HasPrefix(s, "ServiceUnavailable: ") then Some(ServiceUnavailable(s[20..]))
    else None
  }

  /** `Display` loses nothing: the text names the variant and carries the whole message. */
  lemma ParseDisplayRoundTrip(e: ServiceError)
    ensures ParseDisplay(Display(e)) == Some(e)
  {
    var s := Display(e);
    match e
    case InternalServerError =>
    case BadRequest(m) =>
      assert s != "Internal Server Error" by { assert s[0] == 'B'; }
      assert s[..12] == "BadRequest: " && s[12..] == m;
    case Conflict(m) =>
      assert s != "Internal Server Error" by { assert s[0] == 'C'; }
      assert !HasPrefix(s, "BadRequest: ") by { assert s[0] == 'C'; }
      assert s[..10] == "Conflict: " && s[10..] == m;
    case NoContent(m) =>
      assert s != "Internal Server Error" by { assert s[0] == 'N'; }
      assert !HasPrefix(s, "BadRequest: ") by { assert s[0] == 'N'; }
      assert !HasPrefix(s, "Conflict: ") by { assert s[0] == 'N'; }
      assert s[..11] == "NoContent: " && s[11..] == m;
    case ServiceUnavailable(m) =>
      assert s != "Internal Server Error" by { assert s[0] == 'S'; }
      assert !HasPrefix(s, "BadRequest: ") by { assert s[0] == 'S'; }
      assert !HasPrefix(s, "Conflict: ") by { assert s[0] == 'S'; }
      assert !HasPrefix(s, "NoContent: ") by { assert s[0] == 'S'; }
      assert s[..20] == "ServiceUnavailable: " && s[20..] == m;
  }

  /** Distinct errors never display alike. */
  lemma DisplayInjective(e1: ServiceError, e2: ServiceError)
    requires Display(e1) == Display(e2)
    ensures e1 == e2
  {
    ParseDisplayRoundTrip(e1);
    ParseDisplayRoundTrip(e2);
  }

  /** Status code of `error_response`; the codes are those RFC 9110 assigns
      to the reason phrases the variants are named after (sections 15.6.1,
      15.5.1, 15.5.10, 15.3.5 and 15.6.4). */
  function Status(e: ServiceError): (code: nat)
    ensures e.InternalServerError? <==> code == 500
    ensures e.BadRequest? <==> code == 400
    ensures e.Conflict? <==> code == 409
    ensures e.NoContent? <==> code == 204
    ensures e.ServiceUnavailable? <==> code == 503
  {
    match e
    case InternalServerError => 500
    case BadRequest(_) => 400
    case Conflict(_) => 409
    case NoContent(_) => 204
    case ServiceUnavailable(_) => 503
  }

  /** `ResponseError::error_response`: a JSON response whose body decodes to
      the fixed apology for a 500 and to the carried message otherwise. */
  function ErrorResponse(e: ServiceError): (r: Response)
    ensures r.status == Status(e) && r.contentType == ApplicationJson
    ensures e.InternalServerError? ==> Unquote(r.body) == Some(InternalMessage)
    ensures !e.InternalServerError? ==> Unquote(r.body) == Some(e.message)
  {
    var text := if e.InternalServerError? then InternalMessage else e.message;
    UnquoteQuote(text);
    Response(Status(e), ApplicationJson, Quote(text))
  }

  /** Only 500 and 503 are server-error responses; BadRequest and Conflict
      are client errors and NoContent is reported as success class 2xx. */
  lemma StatusClasses(e: ServiceError)
    ensures 500 <= ErrorResponse(e).status < 600 <==> e.InternalServerError? || e.ServiceUnavailable?
    ensures 400 <= ErrorResponse(e).status < 500 <==> e.BadRequest? || e.Conflict?
    ensures 200 <= ErrorResponse(e).status < 300 <==> e.NoContent?
  {
  }

  /** A response identifies the error it was built from: the status gives
      the variant and the body gives the message. */
  lemma ErrorResponseInjective(e1: ServiceError, e2: ServiceError)
    requires ErrorResponse(e1) == ErrorResponse(e2)
    ensures e1 == e2
  {
    assert Status(e1) == Status(e2);
    if !e1.InternalServerError? {
      assert Unquote(ErrorResponse(e1).body) == Some(e1.message);
      assert Unquote(ErrorResponse(e2).body) == Some(e2.message);
    }
  }

  /** Errors of the libraries the service calls, each with its `to_string()` text. */
  datatype ForeignError =
    | IoError(message: string)              // std::io::Error
    | TomlError(message: string)            // toml::de::Error
    | LogError(message: string)             // fast_log::error::LogError
    | SmtpError(message: string)            // lettre::transport::smtp::Error
    | FileTransportError(message: string)   // lettre::transport::file::Error
    | AddressError(message: string)         // lettre::address::AddressError
    | LettreError(message: string)          // lettre::error::Error
    | AddrParseError(message: string)       // std::net::AddrParseError
    | MultipartError(message: string)       // actix_multipart::MultipartError

  /** The `From` conversions that `?` applies. */
  function FromForeign(f: ForeignError): (e: ServiceError)
    ensures f.IoError? <==> e == NoContent(f.message)
    ensures f.MultipartError? <==> e == BadRequest(f.message)
    ensures f.SmtpError? || f.AddressError? ==> e == Conflict(f.message)
    ensures e.InternalServerError? <==>
              f.TomlError? || f.LogError? || f.FileTransportError? || f.LettreError? || f.AddrParseError?
    ensures !e.ServiceUnavailable?
  {
    match f
    case IoError(m) => NoContent(m)
    case TomlError(_) => InternalServerError
    case LogError(_) => InternalServerError
    case SmtpError(m) => Conflict(m)
    case FileTransportError(_) => InternalServerError
    case AddressError(m) => Conflict(m)
    case LettreError(_) => InternalServerError
    case AddrParseError(_) => InternalServerError
    case MultipartError(m) => BadRequest(m)
  }

  /** The message of a converted error reaches the client unless the
      conversion chose the fixed 500 apology. */
  lemma ForeignMessageReachesClient(f: ForeignError)
    ensures !FromForeign(f).InternalServerError? ==> Unquote(ErrorResponse(FromForeign(f)).body) == Some(f.message)
    ensures FromForeign(f).InternalServerError? ==> Unquote(ErrorResponse(FromForeign(f)).body) == Some(InternalMessage)
  {
  }

  /** How `{:?}` writes one character of a string. Named escapes and the
      ASCII control characters are exact; see the README for the rest. */
  function DebugChar(c: char): (s: string)
    ensures |s| >= 1
  {
    if c == '\0' then "\\0"
    else if c == '\t' then "\\t"
    else if c == '\r' then "\\r"
    else if c == '\n' then "\\n"
    else if c == '\\' then "\\\\"
    else if c == '"' then "\\\""
    else if (c as int) < 0x20 || c as int == 0x7F then
      if (c as int) < 16 then ['\\', 'u', '{', HexDigit(c as int), '}']
      else ['\\', 'u', '{', HexDigit(c as int / 16), HexDigit(c as int % 16), '}']
    else [c]
  }

  function DebugEscape(s: string): (t: string)
  {
    if |s| == 0 then "" else DebugChar(s[0]) + DebugEscape(s[1..])
  }

  /** `#[derive(Debug)]` rendering: a unit variant is its name, a message
      variant is its name applied to the quoted message. */
  function Debug(e: ServiceError): (s: string)
    ensures HasPrefix(s, VariantName(e))
  {
    if e.InternalServerError? then VariantName(e)
    else VariantName(e) + "(\"" + DebugEscape(e.message) + "\")"
  }

  /** A few of `std::io::ErrorKind`'s kinds. The service only ever builds
      `Other`; the rest are kept so that "always `Other`" excludes something. */
  datatype IoErrorKind = NotFound | PermissionDenied | InvalidData | Other

  /** `std::io::Error`, as far as the service builds one. */
  datatype StdIoError = StdIoError(kind: IoErrorKind, message: string)

  /** `From<ServiceError> for io::Error`: always kind `Other`, carrying the
      debug rendering, whichever variant it started from. */
  function ToIoError(e: ServiceError): (r: StdIoError)
    ensures r.kind == Other
    ensures HasPrefix(r.message, VariantName(e))
  {
    StdIoError(Other, Debug(e))
  }
}

=== FILE: http.dfy ===
/** The parts of an HTTP response the service decides, and the JSON string
    encoding that `HttpResponse::json` applies to a `String` body.

    The encoder follows serde_json's string writer: `"` and `\` are
    backslash-escaped, the control characters U+0008, U+0009, U+000A, U+000C
    and U+000D get their short escapes, every other character below U+0020
    becomes `\u00XX` with lower-case hex digits, and everything else is
    copied verbatim. `Unquote` is an independent JSON string decoder; the
    lemma `UnquoteQuote` proves that it recovers every encoded string. */
module Http {
  import opened Base

  /** Status code, `Content-Type` header and body of a response. */
  datatype Response = Response(status: nat, contentType: string, body: string)

  /** Content type set by `HttpResponseBuilder::json`. */
  const ApplicationJson: string := "application/json"

  /** Content type of `ContentType::plaintext()` and of a `&'static str` responder. */
  const TextPlainUtf8: string := "text/plain; charset=utf-8"

  /** Lower-case hexadecimal digit of `n`. */
  function HexDigit(n: nat): (c: char)
    requires n < 16
    ensures '0' <= c <= '9' || 'a' <= c <= 'f'
  {
    if n < 10 then ('0' as int + n) as char else ('a' as int + n - 10) as char
  }

  /** Value of a hexadecimal digit of either case. */
  function HexValue(c: char): (r: Option<nat>)
    ensures r.Some? ==> r.value < 16
  {
    if '0' <= c <= '9' then Some(c as int - '0' as int)
    else if 'a' <= c <= 'f' then Some(c as int - 'a' as int + 10)
    else if 'A' <= c <= 'F' then Some(c as int - 'A' as int + 10)
    else None
  }

  lemma HexValueOfDigit(n: nat)
    requires n < 16
    ensures HexValue(HexDigit(n)) == Some(n)
  {
  }

  /** Value of four hexadecimal digits, as in a `\uXXXX` escape. */
  function Hex4(q: string): (r: Option<nat>)
    requires |q| == 4
    ensures r.Some? ==> r.value < 0x1_0000
  {
    match (HexValue(q[0]), HexValue(q[1]), HexValue(q[2]), HexValue(q[3]))
    case (Some(a), Some(b), Some(c), Some(d)) => Some(((a * 16 + b) * 16 + c) * 16 + d)
    case _ => None
  }

  /** The escape serde_json writes for one character. */
  function EscapeChar(c: char): (e: string)
    ensures 1 <= |e| <= 6
    ensures |e| == 1 <==> e[0] != '\\'
  {
    if c == '"' then "\\\""
    else if c == '\\' then "\\\\"
    else if c == '\U{0008}' then "\\b"
    else if c == '\t' then "\\t"
    else if c == '\n' then "\\n"
    else if c == '\U{000C}' then "\\f"
    else if c == '\r' then "\\r"
    else if (c as int) < 0x20 then ['\\', 'u', '0', '0', HexDigit(c as int / 16), HexDigit(c as int % 16)]
    else [c]
  }

  /** Contents of the JSON string literal for `s`, without the quotes. */
  function Escape(s: string): (t: string)
  {
    if |s| == 0 then "" else EscapeChar(s[0]) + Escape(s[1..])
  }

  /** The JSON document serde_json produces for the string `s`. */
  function Quote(s: string): (j: string)
    ensures 2 <= |j| && j[0] == '"' && j[|j| - 1] == '"'
  {
    "\"" + Escape(s) + "\""
  }

  /** The character a two-character escape `\e` stands for. */
  function ShortUnescape(e: char): (c: Option<char>)
  {
    if e == '"' then Some('"')
    else if e == '\\' then Some('\\')
    else if e == '/' then Some('/')
    else if e == 'b' then Some('\U{0008}')
    else if e == 'f' then Some('\U{000C}')
    else if e == 'n' then Some('\n')
    else if e == 'r' then Some('\r')
    else if e == 't' then Some('\t')
    else None
  }

  function Prepend(c: char, r: Option<string>): (p: Option<string>)
  {
    match r
    case Some(s) => Some([c] + s)
    case None => None
  }

  /** Decodes the contents of a JSON string literal; `None` when they are
      malformed (a bare quote, a raw control character, an unknown escape or
      any surrogate escape, paired or not). */
  function Unescape(t: string): (r: Option<string>)
    decreases |t|
  {
    if |t| == 0 then Some("")
    else if t[0] == '\\' then
      if |t| < 2 then None
      else if t[1] == 'u' then
        if |t| < 6 then None
        else match Hex4(t[2..6])
          case None => None
          case Some(v) =>
            if v < 0xD800 || 0xE000 <= v then Prepend(v as char, Unescape(t[6..])) else None
      else match ShortUnescape(t[1])
        case None => None
        case Some(c) => Prepend(c, Unescape(t[2..]))
    else if t[0] == '"' || (t[0] as int) < 0x20 then None
    else Prepend(t[0], Unescape(t[1..]))
  }

  /** Decodes a JSON string document. */
  function Unquote(j: string): (r: Option<string>)
  {
    if 2 <= |j| && j[0] == '"' && j[|j| - 1] == '"' then Unescape(j[1..|j| - 1]) else None
  }

  /** Decoding consumes exactly the escape of the first character. */
  lemma UnescapeHead(c: char, rest: string)
    ensures Unescape(EscapeChar(c) + rest) == Prepend(c, Unescape(rest))
  {
    var t := EscapeChar(c) + rest;
    if (c as int) < 0x20 && c != '\U{0008}' && c != '\t' && c != '\n' && c != '\U{000C}' && c != '\r' {
      var hi, lo := c as int / 16, c as int % 16;
      HexValueOfDigit(0);
      HexValueOfDigit(hi);
      HexValueOfDigit(lo);
      assert t[2..6] == ['0', '0', HexDigit(hi), HexDigit(lo)];
      assert Hex4(t[2..6]) == Some(c as int);
      assert t[6..] == rest;
    } else if |EscapeChar(c)| == 2 {
      assert t[2..] == rest;
    } else {
      assert t[1..] == rest;
    }
  }

  /** Decoding the escaped contents gives back the original string. */
  lemma {:induction false} UnescapeEscape(s: string)
    ensures Unescape(Escape(s)) == Some(s)
  {
    if |s| > 0 {
      UnescapeEscape(s[1..]);
      UnescapeHead(s[0], Escape(s[1..]));
      assert [s[0]] + s[1..] == s;
    }
  }

  /** Round trip: every JSON string body decodes to the message it encodes. */
  lemma UnquoteQuote(s: string)
    ensures Unquote(Quote(s)) == Some(s)
  {
    var j := Quote(s);
    assert j[1..|j| - 1] == Escape(s);
    UnescapeEscape(s);
  }

  /** Two messages give the same JSON body only if they are equal. */
  lemma QuoteInjective(s: string, t: string)
    requires Quote(s) == Quote(t)
    ensures s == t
  {
    UnquoteQuote(s);
    UnquoteQuote(t);
  }
}

=== FILE: ip_extractor.dfy ===
/** The rate limiter's key extractor (src/utils/ip_extrator.rs): which client
    address a request is throttled under, and the fixed response once the
    limit is exceeded. The request's parts the extractor reads are given as
    values, and the two standard-library address parsers as functions. */
module IpExtractor {
  import opened Base
  import opened Http

  /** The eight 16-bit segments of an `Ipv6Addr`. */
  type Segments = s: seq<u16> | |s| == 8 witness [0, 0, 0, 0, 0, 0, 0, 0]

  /** `std::net::IpAddr`. */
  datatype IpAddr = V4(a: byte, b: byte, c: byte, d: byte) | V6(segments: Segments)

  /** `0.0.0.0`, the proxy address assumed when none is configured. */
  const Unspecified: IpAddr := V4(0, 0, 0, 0)

  const RealIpError: string := "Could not extract real IP address from request"
  const PeerIpError: string := "Could not extract peer IP address from request"
  const TooManyRequests: string := "Too many requests"

  /** What `extract` reads from a request:
      - `proxy`: the `web::Data<IpAddr>` in app data, if any;
      - `peerIp`: the IP of `req.peer_addr()`, if any;
      - `realIp`: `connection_info.realip_remote_addr()`, if any;
      - `peerAddr`: `connection_info.peer_addr()`, if any. */
  datatype Request = Request(
    proxy: Option<IpAddr>,
    peerIp: Option<IpAddr>,
    realIp: Option<string>,
    peerAddr: Option<string>)

  /** `SocketAddr::from_str` (reduced to the IP it carries) and `IpAddr::from_str`. */
  datatype Parsers = Parsers(socketAddr: string -> Option<IpAddr>, ipAddr: string -> Option<IpAddr>)

  /** The trusted proxy: the configured one, else `0.0.0.0`. */
  function TrustedProxy(req: Request): (ip: IpAddr)
  {
    req.proxy.GetOr(Unspecified)
  }

  /** The request came through the trusted proxy. */
  predicate ViaProxy(req: Request)
  {
    req.peerIp == Some(TrustedProxy(req))
  }

  /** An address string read as a socket address, falling back to a bare IP. */
  function ParseKey(s: string, parsers: Parsers): (r: Option<IpAddr>)
  {
    match parsers.socketAddr(s)
    case Some(ip) => Some(ip)
    case None => parsers.ipAddr(s)
  }

  /** With no proxy configured, only a peer at `0.0.0.0` counts as the proxy;
      with one configured, exactly a peer at that address does. */
  lemma ProxyDefaultsToUnspecified(req: Request)
    ensures req.proxy.None? ==> (ViaProxy(req) <==> req.peerIp == Some(V4(0, 0, 0, 0)))
    ensures req.proxy.Some? ==> (ViaProxy(req) <==> req.peerIp == req.proxy)
  {
  }

  /** An address string yields a key if either form parses, and the socket
      form is preferred when both do. */
  lemma ParseKeyFallback(s: string, parsers: Parsers)
    ensures ParseKey(s, parsers).Some? <==> parsers.socketAddr(s).Some? || parsers.ipAddr(s).Some?
    ensures parsers.socketAddr(s).Some? ==> ParseKey(s, parsers) == parsers.socketAddr(s)
    ensures parsers.socketAddr(s).None? ==> ParseKey(s, parsers) == parsers.ipAddr(s)
  {
  }

  /** Reads one address source; a missing or unparsable string is the
      path's error. */
  function KeyFrom(source: Option<string>, parsers: Parsers, error: string): (r: Result<IpAddr, string>)
    ensures r.Ok? <==> source.Some? && ParseKey(source.value, parsers).Some?
    ensures r.Ok? ==> r.value == ParseKey(source.value, parsers).value
    ensures r.Err? ==> r.error == error
  {
    match source
    case None => Err(error)
    case Some(s) =>
      match ParseKey(s, parsers)
      case Some(ip) => Ok(ip)
      case None => Err(error)
  }

  /** `IpExtractor::extract`. */
  function Extract(req: Request, parsers: Parsers): (r: Result<IpAddr, string>)
    ensures ViaProxy(req) ==> r == KeyFrom(req.realIp, parsers, RealIpError)
    ensures !ViaProxy(req) ==> r == KeyFrom(req.peerAddr, parsers, PeerIpError)
  {
    match req.peerIp
    case Some(peer) =>
      if peer == TrustedProxy(req) then KeyFrom(req.realIp, parsers, RealIpError)
      else KeyFrom(req.peerAddr, parsers, PeerIpError)
    case None => KeyFrom(req.peerAddr, parsers, PeerIpError)
  }

  /** A key comes from the forwarded address exactly for requests from the
      trusted proxy, and from the connection's peer address otherwise; an
      error carries the message of the path taken, never a fallback key. */
  lemma ExtractPaths(req: Request, parsers: Parsers)
    ensures ViaProxy(req) && req.realIp.None? ==> Extract(req, parsers) == Err(RealIpError)
    ensures !ViaProxy(req) && req.peerAddr.None? ==> Extract(req, parsers) == Err(PeerIpError)
    ensures ViaProxy(req) && req.realIp.Some? ==>
              (Extract(req, parsers).Ok? <==> ParseKey(req.realIp.value, parsers).Some?)
    ensures !ViaProxy(req) && req.peerAddr.Some? ==>
              (Extract(req, parsers).Ok? <==> ParseKey(req.peerAddr.value, parsers).Some?)
    ensures Extract(req, parsers).Err? ==>
              Extract(req, parsers).error == (if ViaProxy(req) then RealIpError else PeerIpError)
  {
  }

  /** A client that is not the trusted proxy cannot choose its key through
      forwarding headers: the forwarded address is never read. */
  lemma SpoofedHeaderIgnored(req: Request, parsers: Parsers, forged: Option<string>)
    requires !ViaProxy(req)
    ensures Extract(req, parsers) == Extract(req.(realIp := forged), parsers)
  {
    assert !ViaProxy(req.(realIp := forged));
  }

  /** A request without a peer address is never treated as proxied. */
  lemma NoPeerIsDirect(req: Request, parsers: Parsers)
    requires req.peerIp.None?
    ensures Extract(req, parsers) == KeyFrom(req.peerAddr, parsers, PeerIpError)
  {
  }

  /** The proxied and the direct path read an address string the same way,
      so a client reaching the service through the proxy and one connecting
      from that address directly share one bucket. */
  lemma PathsConverge(viaProxy: Request, direct: Request, parsers: Parsers, s: string)
    requires ViaProxy(viaProxy) && viaProxy.realIp == Some(s)
    requires !ViaProxy(direct) && direct.peerAddr == Some(s)
    requires ParseKey(s, parsers).Some?
    ensures Extract(viaProxy, parsers) == Extract(direct, parsers) == Ok(ParseKey(s, parsers).value)
  {
  }

  /** Trusted proxy 203.0.113.9 forwarding for 198.51.100.7 and that client
      connecting directly (with a forged header) get the same key. */
  lemma ProxyScenario(parsers: Parsers, forged: string)
    requires parsers.socketAddr("198.51.100.7").None?
    requires parsers.ipAddr("198.51.100.7") == Some(V4(198, 51, 100, 7))
    ensures Extract(Request(Some(V4(203, 0, 113, 9)), Some(V4(203, 0, 113, 9)), Some("198.51.100.7"), Some("203.0.113.9:443")), parsers)
            == Ok(V4(198, 51, 100, 7))
    ensures Extract(Request(Some(V4(203, 0, 113, 9)), Some(V4(198, 51, 100, 7)), Some(forged), Some("198.51.100.7")), parsers)
            == Ok(V4(198, 51, 100, 7))
  {
  }

  /** `exceed_rate_limit_response`: plain text "Too many requests" on the
      status the builder already carries; the wait time is dropped. */
  function ExceedRateLimitResponse(waitSeconds: nat, status: nat): (r: Response)
  {
    Response(status, TextPlainUtf8, TooManyRequests)
  }

  /** The response is always plain-text "Too many requests" on the given
      status and reveals nothing about how long the client must wait. */
  lemma RateLimitHidesWait(w1: nat, w2: nat, status: nat)
    ensures ExceedRateLimitResponse(w1, status) == ExceedRateLimitResponse(w2, status)
    ensures ExceedRateLimitResponse(w1, status) == Response(status, TextPlainUtf8, "Too many requests")
  {
  }
}

=== FILE: listen.dfy ===
/** The listen argument of the server entry point (src/main.rs): the string
    is split at its first `:` into an address and a port text, and the port
    text is read as a decimal `u16`, defaulting to 0. */
module Listen {
  import opened Base

  /** What the entry point does with the listen argument. */
  datatype Plan = Serve(addr: string, port: u16) | NoListen

  /** `str::split_once`: the text before and after the first `sep`. */
  function SplitOnce(s: string, sep: char): (r: Option<(string, string)>)
    ensures r.None? <==> sep !in s
    ensures r.Some? ==> s == r.value.0 + [sep] + r.value.1 && sep !in r.value.0
  {
    if |s| == 0 then None
    else if s[0] == sep then Some(([], s[1..]))
    else match SplitOnce(s[1..], sep)
      case None => None
      case Some((before, after)) => Some(([s[0]] + before, after))
  }

  /** The split is the only one whose left part has no separator. */
  lemma {:induction false} SplitOnceUnique(before: string, sep: char, after: string)
    requires sep !in before
    ensures SplitOnce(before + [sep] + after, sep) == Some((before, after))
  {
    var s := before + [sep] + after;
    if |before| == 0 {
      assert s == [sep] + after;
      assert s[1..] == after;
    } else {
      assert s[0] == before[0];
      assert s[1..] == before[1..] + [sep] + after;
      SplitOnceUnique(before[1..], sep, after);
      assert [before[0]] + before[1..] == before;
    }
  }

  predicate IsDigit(c: char)
  {
    '0' <= c <= '9'
  }

  predicate AllDigits(s: string)
  {
    forall i :: 0 <= i < |s| ==> IsDigit(s[i])
  }

  /** The value of a string of decimal digits. */
  function DigitsValue(s: string): (n: nat)
    requires AllDigits(s)
  {
    if |s| == 0 then 0 else DigitsValue(s[..|s| - 1]) * 10 + (s[|s| - 1] as int - '0' as int)
  }

  /** `u16::from_str`: an optional leading `+`, then at least one ASCII
      digit, with a value below 65536. */
  function ParseU16(s: string): (r: Option<u16>)
    ensures r.Some? <==> |s| > 0 && var digits := if s[0] == '+' then s[1..] else s;
                         |digits| > 0 && AllDigits(digits) && DigitsValue(digits) < 0x1_0000
    ensures r.Some? ==> |s| > 0 && var digits := if s[0] == '+' then s[1..] else s;
                        |digits| > 0 && AllDigits(digits) && DigitsValue(digits) == r.value as int
  {
    if |s| == 0 then None
    else
      var digits := if s[0] == '+' then s[1..] else s;
      if |digits| == 0 || !AllDigits(digits) then None
      else if DigitsValue(digits) < 0x1_0000 then Some(DigitsValue(digits) as u16)
      else None
  }

  /** Leading zeros and a lone `+0` are accepted, as `u16::from_str` accepts them. */
  lemma ParseU16LeadingZeros()
    ensures ParseU16("0080") == Some(80)
    ensures ParseU16("+0") == Some(0)
  {
    assert DigitsValue("0080") == 80 by {
      assert "0080"[..3] == "008" && "008"[..2] == "00" && "00"[..1] == "0" && "0"[..0] == "";
    }
    assert "+0"[1..] == "0";
    assert DigitsValue("0") == 0 by { assert "0"[..0] == ""; }
  }

  /** `port.parse().unwrap_or_default()`. */
  function PortOrDefault(text: string): (p: u16)
  {
    ParseU16(text).GetOr(0)
  }

  /** Canonical decimal rendering of a number, no leading zeros. */
  function Decimal(n: nat): (s: string)
    ensures |s| > 0 && AllDigits(s)
    decreases n
  {
    if n < 10 then [('0' as int + n) as char]
    else Decimal(n / 10) + [('0' as int + n % 10) as char]
  }

  lemma {:induction false} DecimalValue(n: nat)
    ensures DigitsValue(Decimal(n)) == n
    decreases n
  {
    if n >= 10 {
      var s := Decimal(n);
      assert s[..|s| - 1] == Decimal(n / 10);
      DecimalValue(n / 10);
    }
  }

  /** Every port written in decimal, with or without a `+`, reads back as itself. */
  lemma ParseU16Decimal(n: u16)
    ensures ParseU16(Decimal(n as int)) == Some(n)
    ensures ParseU16("+" + Decimal(n as int)) == Some(n)
  {
    DecimalValue(n as int);
    var s := "+" + Decimal(n as int);
    assert s[1..] == Decimal(n as int);
  }

  /** `main`'s handling of `--listen`: an absent argument counts as "". */
  function ListenPlan(listen: Option<string>): (plan: Plan)
    ensures plan.NoListen? <==> ':' !in listen.GetOr("")
    ensures plan.Serve? ==> ':' !in plan.addr
    ensures plan.Serve? ==> exists portText :: listen.GetOr("") == plan.addr + ":" + portText
                                               && plan.port == PortOrDefault(portText)
  {
    match SplitOnce(listen.GetOr(""), ':')
    case None => NoListen
    case Some((addr, portText)) => Serve(addr, PortOrDefault(portText))
  }

  /** No argument, or one without a colon, starts no server. */
  lemma NoListenWithoutColon(listen: Option<string>)
    requires listen.None? || ':' !in listen.value
    ensures ListenPlan(listen) == NoListen
  {
  }

  /** The address is everything before the first colon and the port is read
      from everything after it. */
  lemma ListenSplitsAtFirstColon(addr: string, portText: string)
    requires ':' !in addr
    ensures ListenPlan(Some(addr + ":" + portText)) == Serve(addr, PortOrDefault(portText))
  {
    SplitOnceUnique(addr, ':', portText);
  }

  /** A host with a decimal port is served on that port. */
  lemma ListenWithPort(addr: string, port: u16)
    requires ':' !in addr
    ensures ListenPlan(Some(addr + ":" + Decimal(port as int))) == Serve(addr, port)
  {
    ListenSplitsAtFirstColon(addr, Decimal(port as int));
    ParseU16Decimal(port);
  }

  /** An unreadable port falls back to 0, letting the system pick one. */
  lemma BadPortIsZero(addr: string)
    requires ':' !in addr
    ensures ListenPlan(Some(addr + ":http")) == Serve(addr, 0)
  {
    assert addr + ":http" == addr + ":" + "http";
    ListenSplitsAtFirstColon(addr, "http");
    assert !IsDigit("http"[0]);
  }

  /** So does a port beyond the `u16` range. */
  lemma OverflowPortIsZero(addr: string)
    requires ':' !in addr
    ensures ListenPlan(Some(addr + ":70000")) == Serve(addr, 0)
  {
    assert addr + ":70000" == addr + ":" + "70000";
    ListenSplitsAtFirstColon(addr, "70000");
    assert ParseU16("70000").None? by {
      assert DigitsValue("7") == 7 by { assert "7"[..0] == ""; }
      assert DigitsValue("70") == 70 by { assert "70"[..1] == "7"; }
      assert DigitsValue("700") == 700 by { assert "700"[..2] == "70"; }
      assert DigitsValue("7000") == 7000 by { assert "7000"[..3] == "700"; }
      assert DigitsValue("70000") == 70000 by { assert "70000"[..4] == "7000"; }
    }
  }

  /** A bracketed IPv6 listen address is cut at its first colon: the address
      becomes "[" and the port text does not parse. */
  lemma Ipv6ListenIsCutInsideBrackets()
    ensures ListenPlan(Some("[::1]:8989")) == Serve("[", 0)
  {
    ListenSplitsAtFirstColon("[", ":1]:8989");
    assert !IsDigit(":1]:8989"[0]);
  }
}

=== FILE: mailer.dfy ===
/** Message composition and sending (src/utils/mailer.rs).

    `send` builds a lettre message from a `Msg` and the mail configuration,
    then hands it to an SMTP transport. Everything up to that hand-off is
    modelled as a pure value: the `Draft` below, or the `ServiceError` that
    stopped it. The foreign pieces (the HTML parser, the mailbox parser,
    lettre's body builder, the relay builder and the network send) are the
    function-typed fields of `Env`. */
module Mailer {
  import opened Base
  import Errors
  import Config

  /** `Msg`. `direction` is never read from a request body; the routes set it. */
  datatype Msg = Msg(direction: Option<string>, mail: string, subject: string, text: string)

  /** `Default for Msg`. */
  const DefaultMsg: Msg := Msg(None, "my@mail.org", "My Subject", "My Text")

  /** A top-level node of an `html_parser` DOM. */
  datatype Node = TextNode(content: string) | ElementNode(name: string) | CommentNode(content: string)

  /** `Node::text()`: the text of a text node, nothing for the other kinds. */
  function NodeText(n: Node): (t: Option<string>)
  {
    if n.TextNode? then Some(n.content) else None
  }

  /** The result of `Dom::parse`, reduced to its top-level children. */
  datatype Dom = Dom(children: seq<Node>)

  datatype ContentType = TextPlain | TextHtml

  /** A parsed mailbox (`lettre::message::Mailbox`). */
  datatype Mailbox = Mailbox(name: Option<string>, email: string)

  /** The message as composed, right before `MessageBuilder::body`. */
  datatype Draft = Draft(
    from: Mailbox,
    subject: string,
    contentType: ContentType,
    to: seq<Mailbox>,
    replyTo: Option<Mailbox>,
    body: string)

  /** What the SMTP transport is built from. */
  datatype Transport = Transport(host: string, starttls: bool, user: string, password: string)

  /** The foreign code `send` calls:
      - `parseAddress`: `str::parse::<Mailbox>`, with the `AddressError` text on failure;
      - `parseDom`: `Dom::parse`, with its error text on failure;
      - `buildBody`: whether `MessageBuilder::body` accepts the draft;
      - `relay`: building the relay transport for a host, with or without STARTTLS;
      - `deliver`: the network send, with the SMTP error text on failure. */
  datatype Env = Env(
    parseAddress: string -> Result<Mailbox, string>,
    parseDom: string -> Result<Dom, string>,
    buildBody: Draft -> bool,
    relay: (string, bool) -> Result<(), string>,
    deliver: (Transport, Draft) -> Result<(), string>)

  const SendFailurePrefix: string := "Could not send mail: "

  /** The parsed document is a single text node. */
  predicate IsSingleText(dom: Dom)
  {
    |dom.children| == 1 && NodeText(dom.children[0]).Some?
  }

  /** `Msg::content_type`: plain text when the body does not parse or parses
      to a single text node; HTML for no children, several children, or a
      single element or comment. */
  function ContentTypeOf(text: string, parseDom: string -> Result<Dom, string>): (ct: ContentType)
    ensures ct == TextPlain <==> parseDom(text).Err? || IsSingleText(parseDom(text).value)
    ensures ct == TextHtml <==>
              parseDom(text).Ok? &&
              (|parseDom(text).value.children| != 1 || !parseDom(text).value.children[0].TextNode?)
  {
    match parseDom(text)
    case Ok(dom) =>
      if |dom.children| == 1 && NodeText(dom.children[0]).Some? then TextPlain else TextHtml
    case Err(_) => TextPlain
  }

  /** The mails of every group whose direction equals `direction`, in
      configuration order and then in the group's own order. */
  function Resolve(direction: string, groups: seq<Config.Recipients>): (mails: seq<string>)
  {
    if |groups| == 0 then []
    else (if groups[0].direction == direction then groups[0].mails else []) + Resolve(direction, groups[1..])
  }

  /** Routing distributes over a split of the configuration. */
  lemma {:induction false} ResolveAppend(direction: string, a: seq<Config.Recipients>, b: seq<Config.Recipients>)
    ensures Resolve(direction, a + b) == Resolve(direction, a) + Resolve(direction, b)
  {
    if |a| > 0 {
      assert (a + b)[0] == a[0];
      assert (a + b)[1..] == a[1..] + b;
      ResolveAppend(direction, a[1..], b);
    } else {
      assert a + b == b;
    }
  }

  /** Extending the configuration by one group adds that group's mails at
      the end, exactly when its direction matches. */
  lemma ResolveSnoc(direction: string, groups: seq<Config.Recipients>, i: nat)
    requires i < |groups|
    ensures Resolve(direction, groups[..i + 1]) ==
              Resolve(direction, groups[..i]) + (if groups[i].direction == direction then groups[i].mails else [])
  {
    assert groups[..i + 1] == groups[..i] + [groups[i]];
    ResolveAppend(direction, groups[..i], [groups[i]]);
    assert Resolve(direction, [groups[i]]) == (if groups[i].direction == direction then groups[i].mails else []) + [];
  }

  /** A mail is routed to exactly when some group with this direction lists it. */
  lemma {:induction false} ResolveMembership(direction: string, groups: seq<Config.Recipients>, m: string)
    ensures m in Resolve(direction, groups) <==>
              exists i :: 0 <= i < |groups| && groups[i].direction == direction && m in groups[i].mails
  {
    if |groups| > 0 {
      ResolveMembership(direction, groups[1..], m);
      if m in Resolve(direction, groups[1..]) {
        var i :| 0 <= i < |groups[1..]| && groups[1..][i].direction == direction && m in groups[1..][i].mails;
        assert groups[i + 1] == groups[1..][i];
      }
      if exists i :: 0 <= i < |groups| && groups[i].direction == direction && m in groups[i].mails {
        var i :| 0 <= i < |groups| && groups[i].direction == direction && m in groups[i].mails;
        if i > 0 {
          assert groups[1..][i - 1] == groups[i];
        }
      }
    }
  }

  /** A direction that no group carries routes to nobody. */
  lemma {:induction false} ResolveNoMatch(direction: string, groups: seq<Config.Recipients>)
    requires forall i :: 0 <= i < |groups| ==> groups[i].direction != direction
    ensures Resolve(direction, groups) == []
  {
    if |groups| > 0 {
      assert forall i :: 0 <= i < |groups[1..]| ==> groups[1..][i] == groups[i + 1];
      ResolveNoMatch(direction, groups[1..]);
    }
  }

  /** Parses mailboxes in order, stopping at the first failure the way the
      `?` inside the routing loop does. */
  function ParseAll(mails: seq<string>, parse: string -> Result<Mailbox, string>): (r: Result<seq<Mailbox>, string>)
  {
    if |mails| == 0 then Ok([])
    else match parse(mails[0])
      case Err(e) => Err(e)
      case Ok(m) =>
        match ParseAll(mails[1..], parse)
        case Err(e) => Err(e)
        case Ok(ms) => Ok([m] + ms)
  }

  /** The parse succeeds exactly when every address parses, and then holds
      each one's mailbox in order; otherwise it fails with the error of the
      first address that does not parse. */
  lemma {:induction false} ParseAllSpec(mails: seq<string>, parse: string -> Result<Mailbox, string>)
    ensures ParseAll(mails, parse).Ok? <==> forall i :: 0 <= i < |mails| ==> parse(mails[i]).Ok?
    ensures ParseAll(mails, parse).Ok? ==>
              |ParseAll(mails, parse).value| == |mails| &&
              forall i :: 0 <= i < |mails| ==> parse(mails[i]) == Ok(ParseAll(mails, parse).value[i])
    ensures ParseAll(mails, parse).Err? ==>
              exists i :: 0 <= i < |mails| && parse(mails[i]) == Err(ParseAll(mails, parse).error) &&
                          forall j :: 0 <= j < i ==> parse(mails[j]).Ok?
  {
    if |mails| > 0 {
      ParseAllSpec(mails[1..], parse);
      assert forall i :: 0 <= i < |mails[1..]| ==> mails[1..][i] == mails[i + 1];
      var r := ParseAll(mails, parse);
      if parse(mails[0]).Ok? && r.Err? {
        var rest := ParseAll(mails[1..], parse);
        var i :| 0 <= i < |mails[1..]| && parse(mails[1..][i]) == Err(rest.error) &&
                 forall j :: 0 <= j < i ==> parse(mails[1..][j]).Ok?;
        assert parse(mails[i + 1]) == Err(r.error);
        assert forall j :: 0 <= j < i + 1 ==> parse(mails[j]).Ok? by {
          forall j | 0 <= j < i + 1 ensures parse(mails[j]).Ok? {
            if j > 0 { assert mails[j] == mails[1..][j - 1]; }
          }
        }
      }
    }
  }

  /** `ParseAll` over a concatenation: the first part's failure, else the second's. */
  lemma {:induction false} ParseAllAppend(a: seq<string>, b: seq<string>, parse: string -> Result<Mailbox, string>)
    ensures ParseAll(a + b, parse) ==
              match ParseAll(a, parse)
              case Err(e) => Err(e)
              case Ok(x) =>
                match ParseAll(b, parse)
                case Err(e) => Err(e)
                case Ok(y) => Ok(x + y)
  {
    if |a| > 0 {
      assert (a + b)[0] == a[0];
      assert (a + b)[1..] == a[1..] + b;
      ParseAllAppend(a[1..], b, parse);
      match parse(a[0])
      case Err(_) =>
      case Ok(m) =>
        match ParseAll(a[1..], parse)
        case Err(_) =>
        case Ok(x) =>
          match ParseAll(b, parse)
          case Err(_) =>
          case Ok(y) =>
            assert [m] + (x + y) == ([m] + x) + y;
    } else {
      assert a + b == b;
      match ParseAll(b, parse)
      case Err(_) =>
      case Ok(y) => assert [] + y == y;
    }
  }

  lemma ParseAllSingle(x: string, parse: string -> Result<Mailbox, string>)
    ensures parse(x).Err? ==> ParseAll([x], parse) == Err(parse(x).error)
    ensures parse(x).Ok? ==> ParseAll([x], parse) == Ok([parse(x).value])
  {
    assert [x][0] == x && [x][1..] == [];
    if parse(x).Ok? {
      assert [parse(x).value] + [] == [parse(x).value];
    }
  }

  /** `str::parse::<Mailbox>()?`: an address error becomes `Conflict`. */
  function ParseAddress(s: string, env: Env): (r: Result<Mailbox, Errors.ServiceError>)
    ensures env.parseAddress(s).Ok? ==> r == Ok(env.parseAddress(s).value)
    ensures env.parseAddress(s).Err? ==> r == Err(Errors.Conflict(env.parseAddress(s).error))
  {
    match env.parseAddress(s)
    case Ok(m) => Ok(m)
    case Err(e) => Err(Errors.FromForeign(Errors.AddressError(e)))
  }

  /** Every address `send` parses, in the order it parses them: the sender,
      the message's `mail`, then the routed group mails. */
  function AddressesInOrder(msg: Msg, user: string, groups: seq<Config.Recipients>): (addrs: seq<string>)
  {
    [user, msg.mail] + (if msg.direction.Some? then Resolve(msg.direction.value, groups) else [])
  }

  /** Composition of `send` up to `MessageBuilder::body`. */
  function Compose(msg: Msg, user: string, groups: seq<Config.Recipients>, env: Env): (r: Result<Draft, Errors.ServiceError>)
    ensures r.Ok? ==> env.parseAddress(user) == Ok(r.value.from)
    ensures r.Ok? ==> r.value.subject == msg.subject && r.value.body == msg.text
    ensures r.Ok? ==> r.value.contentType == ContentTypeOf(msg.text, env.parseDom)
    ensures r.Ok? && msg.direction.None? ==>
              r.value.replyTo == None && |r.value.to| == 1 && env.parseAddress(msg.mail) == Ok(r.value.to[0])
    ensures r.Ok? && msg.direction.Some? ==>
              && r.value.replyTo.Some?
              && env.parseAddress(msg.mail) == Ok(r.value.replyTo.value)
              && ParseAll(Resolve(msg.direction.value, groups), env.parseAddress) == Ok(r.value.to)
    ensures r.Err? ==> r.error.Conflict?
  {
    var from :- ParseAddress(user, env);
    var contentType := ContentTypeOf(msg.text, env.parseDom);
    if msg.direction.None? then
      var to :- ParseAddress(msg.mail, env);
      Ok(Draft(from, msg.subject, contentType, [to], None, msg.text))
    else
      var replyTo :- ParseAddress(msg.mail, env);
      match ParseAll(Resolve(msg.direction.value, groups), env.parseAddress)
      case Err(e) => Err(Errors.FromForeign(Errors.AddressError(e)))
      case Ok(to) => Ok(Draft(from, msg.subject, contentType, to, Some(replyTo), msg.text))
  }

  /** Composition fails exactly when some address fails to parse, and then
      with the `Conflict` of the first one in parse order. */
  lemma ComposeFailsOnFirstBadAddress(msg: Msg, user: string, groups: seq<Config.Recipients>, env: Env)
    ensures Compose(msg, user, groups, env).Err? <==> ParseAll(AddressesInOrder(msg, user, groups), env.parseAddress).Err?
    ensures Compose(msg, user, groups, env).Err? ==>
              Compose(msg, user, groups, env).error ==
                Errors.Conflict(ParseAll(AddressesInOrder(msg, user, groups), env.parseAddress).error)
  {
    var rest := if msg.direction.Some? then Resolve(msg.direction.value, groups) else [];
    var all := AddressesInOrder(msg, user, groups);
    assert all == [user] + ([msg.mail] + rest);
    ParseAllAppend([user], [msg.mail] + rest, env.parseAddress);
    ParseAllAppend([msg.mail], rest, env.parseAddress);
    assert [user][1..] == [] && [msg.mail][1..] == [];
  }

  /** Direct mode never consults the configured groups. */
  lemma DirectModeIgnoresGroups(msg: Msg, user: string, g1: seq<Config.Recipients>, g2: seq<Config.Recipients>, env: Env)
    requires msg.direction.None?
    ensures Compose(msg, user, g1, env) == Compose(msg, user, g2, env)
  {
  }

  /** A direction no group carries still composes, with reply-to set and no
      `To` address at all. */
  lemma UnmatchedDirectionHasNoRecipients(msg: Msg, user: string, groups: seq<Config.Recipients>, env: Env)
    requires msg.direction.Some?
    requires forall i :: 0 <= i < |groups| ==> groups[i].direction != msg.direction.value
    requires env.parseAddress(user).Ok? && env.parseAddress(msg.mail).Ok?
    ensures Compose(msg, user, groups, env).Ok?
    ensures Compose(msg, user, groups, env).value.to == []
    ensures Compose(msg, user, groups, env).value.replyTo == Some(env.parseAddress(msg.mail).value)
  {
    ResolveNoMatch(msg.direction.value, groups);
  }

  /** In routed mode every `To` mailbox comes from a group with the message's direction. */
  lemma RoutedRecipientsComeFromMatchingGroups(msg: Msg, user: string, groups: seq<Config.Recipients>, env: Env, k: nat)
    requires msg.direction.Some?
    requires Compose(msg, user, groups, env).Ok?
    requires k < |Compose(msg, user, groups, env).value.to|
    ensures exists i, m :: 0 <= i < |groups| && groups[i].direction == msg.direction.value && m in groups[i].mails
                           && env.parseAddress(m) == Ok(Compose(msg, user, groups, env).value.to[k])
  {
    var mails := Resolve(msg.direction.value, groups);
    ParseAllSpec(mails, env.parseAddress);
    var m := mails[k];
    ResolveMembership(msg.direction.value, groups, m);
  }

  /** `send`: compose, build the body, build the relay, send. The outcomes in
      order: an address error (`Conflict`), a body-build failure (500), a
      relay error (`Conflict` with the SMTP error text), a send failure
      (`Conflict` with the "Could not send mail: " prefix), else success. */
  function Send(msg: Msg, mail: Config.Mail, env: Env): (r: Result<(), Errors.ServiceError>)
    ensures Compose(msg, mail.user, mail.recipients, env).Err? ==>
              r == Err(Compose(msg, mail.user, mail.recipients, env).error)
    ensures Compose(msg, mail.user, mail.recipients, env).Ok? ==>
              var d := Compose(msg, mail.user, mail.recipients, env).value;
              && (!env.buildBody(d) ==> r == Err(Errors.InternalServerError))
              && (env.buildBody(d) && env.relay(mail.smtp, mail.starttls).Err? ==>
                    r == Err(Errors.Conflict(env.relay(mail.smtp, mail.starttls).error)))
              && (env.buildBody(d) && env.relay(mail.smtp, mail.starttls).Ok? ==>
                    var sent := env.deliver(Transport(mail.smtp, mail.starttls, mail.user, mail.password), d);
                    && (sent.Err? ==> r == Err(Errors.Conflict(SendFailurePrefix + sent.error)))
                    && (sent.Ok? ==> r == Ok(())))
  {
    var draft :- Compose(msg, mail.user, mail.recipients, env);
    if !env.buildBody(draft) then Err(Errors.InternalServerError)
    else match env.relay(mail.smtp, mail.starttls)
      case Err(e) => Err(Errors.FromForeign(Errors.SmtpError(e)))
      case Ok(_) =>
        match env.deliver(Transport(mail.smtp, mail.starttls, mail.user, mail.password), draft)
        case Err(e) => Err(Errors.Conflict(SendFailurePrefix + e))
        case Ok(_) => Ok(())
  }

  /** Nothing is handed to the network when composition or the body build
      fails: the outcome is then the same whatever the transport would do. */
  lemma NoDeliveryBeforeBody(msg: Msg, mail: Config.Mail, env: Env, deliver': (Transport, Draft) -> Result<(), string>)
    requires Compose(msg, mail.user, mail.recipients, env).Err?
             || !env.buildBody(Compose(msg, mail.user, mail.recipients, env).value)
    ensures Send(msg, mail, env) == Send(msg, mail, env.(deliver := deliver'))
    ensures Send(msg, mail, env).Err?
  {
  }

  /** The configured `port` is never read by `send`. */
  lemma SendIgnoresPort(msg: Msg, mail: Config.Mail, env: Env, port: u16)
    ensures Send(msg, mail, env) == Send(msg, mail.(port := port), env)
  {
  }

  /** The default message is in direct mode and goes to its own address. */
  lemma DefaultMsgIsDirect(user: string, groups: seq<Config.Recipients>, env: Env)
    requires env.parseAddress(user).Ok? && env.parseAddress("my@mail.org").Ok?
    ensures Compose(DefaultMsg, user, groups, env).Ok?
    ensures Compose(DefaultMsg, user, groups, env).value.to == [env.parseAddress("my@mail.org").value]
    ensures Compose(DefaultMsg, user, groups, env).value.subject == "My Subject"
  {
  }

  /** `send` written the way the source writes it: builder calls in order and
      a nested loop over the groups and their mails. */
  method SendMail(msg: Msg, mail: Config.Mail, env: Env) returns (r: Result<(), Errors.ServiceError>)
    ensures r == Send(msg, mail, env)
  {
    var from := env.parseAddress(mail.user);
    if from.Err? {
      return Err(Errors.Conflict(from.error));
    }
    var contentType := ContentTypeOf(msg.text, env.parseDom);
    var to: seq<Mailbox> := [];
    var replyTo: Option<Mailbox> := None;
    if msg.direction.None? {
      var m := env.parseAddress(msg.mail);
      if m.Err? {
        return Err(Errors.Conflict(m.error));
      }
      to := [m.value];
    } else {
      var m := env.parseAddress(msg.mail);
      if m.Err? {
        return Err(Errors.Conflict(m.error));
      }
      replyTo := Some(m.value);
      var routed := RouteRecipients(msg.direction.value, mail.recipients, env.parseAddress);
      if routed.Err? {
        return Err(Errors.Conflict(routed.error));
      }
      to := routed.value;
    }
    var draft := Draft(from.value, msg.subject, contentType, to, replyTo, msg.text);
    assert Compose(msg, mail.user, mail.recipients, env) == Ok(draft);
    if !env.buildBody(draft) {
      return Err(Errors.InternalServerError);
    }
    var transport := env.relay(mail.smtp, mail.starttls);
    if transport.Err? {
      return Err(Errors.Conflict(transport.error));
    }
    var sent := env.deliver(Transport(mail.smtp, mail.starttls, mail.user, mail.password), draft);
    if sent.Err? {
      return Err(Errors.Conflict(SendFailurePrefix + sent.error));
    }
    return Ok(());
  }

  /** The routing loop of `send`: for each configured group whose direction
      matches, parse and append each of its mails, stopping at the first
      address that does not parse. */
  method RouteRecipients(direction: string, groups: seq<Config.Recipients>, parse: string -> Result<Mailbox, string>)
    returns (r: Result<seq<Mailbox>, string>)
    ensures r == ParseAll(Resolve(direction, groups), parse)
  {
    var to: seq<Mailbox> := [];
    var i := 0;
    while i < |groups|
      invariant 0 <= i <= |groups|
      invariant ParseAll(Resolve(direction, groups[..i]), parse) == Ok(to)
    {
      ResolveSnoc(direction, groups, i);
      if groups[i].direction == direction {
        var group := ParseGroupMails(Resolve(direction, groups[..i]), to, groups[i].mails, parse);
        if group.Err? {
          PrefixFailureIsFinal(direction, groups, i + 1, parse);
          return group;
        }
        to := group.value;
      } else {
        assert Resolve(direction, groups[..i]) + [] == Resolve(direction, groups[..i]);
      }
      i := i + 1;
    }
    assert groups[..i] == groups;
    return Ok(to);
  }

  /** The inner loop of the routing: appends the parse of each of one
      group's mails to the mailboxes already collected for `prefix`. */
  method ParseGroupMails(prefix: seq<string>, to: seq<Mailbox>, mails: seq<string>,
                         parse: string -> Result<Mailbox, string>)
    returns (r: Result<seq<Mailbox>, string>)
    requires ParseAll(prefix, parse) == Ok(to)
    ensures r == ParseAll(prefix + mails, parse)
  {
    var acc := to;
    var j := 0;
    assert prefix + mails[..0] == prefix;
    while j < |mails|
      invariant 0 <= j <= |mails|
      invariant ParseAll(prefix + mails[..j], parse) == Ok(acc)
    {
      var a := parse(mails[j]);
      GroupStep(prefix, mails, j, acc, parse);
      if a.Err? {
        return Err(a.error);
      }
      acc := acc + [a.value];
      j := j + 1;
    }
    assert mails[..j] == mails;
    return Ok(acc);
  }

  /** One iteration of the inner loop: the next mail either extends the
      parsed prefix or is the failure of the whole group. */
  lemma GroupStep(prefix: seq<string>, mails: seq<string>, j: nat, acc: seq<Mailbox>,
                  parse: string -> Result<Mailbox, string>)
    requires j < |mails| && ParseAll(prefix + mails[..j], parse) == Ok(acc)
    ensures parse(mails[j]).Err? ==> ParseAll(prefix + mails, parse) == Err(parse(mails[j]).error)
    ensures parse(mails[j]).Ok? ==> ParseAll(prefix + mails[..j + 1], parse) == Ok(acc + [parse(mails[j]).value])
  {
    ParseAllSnoc(prefix + mails[..j], acc, mails[j], parse);
    assert prefix + mails[..j + 1] == (prefix + mails[..j]) + [mails[j]] by {
      assert mails[..j + 1] == mails[..j] + [mails[j]];
    }
    if parse(mails[j]).Err? {
      ParseAllFailureIsFinal(prefix + mails[..j + 1], mails[j + 1..], parse);
      assert prefix + mails == (prefix + mails[..j + 1]) + mails[j + 1..];
    }
  }

  /** One more address after a parsed prefix: its mailbox is appended, or
      its error is the outcome. */
  lemma ParseAllSnoc(p: seq<string>, acc: seq<Mailbox>, x: string, parse: string -> Result<Mailbox, string>)
    requires ParseAll(p, parse) == Ok(acc)
    ensures parse(x).Err? ==> ParseAll(p + [x], parse) == Err(parse(x).error)
    ensures parse(x).Ok? ==> ParseAll(p + [x], parse) == Ok(acc + [parse(x).value])
  {
    ParseAllSingle(x, parse);
    ParseAllAppend(p, [x], parse);
  }

  /** A failing prefix decides the outcome whatever follows it. */
  lemma ParseAllFailureIsFinal(p: seq<string>, q: seq<string>, parse: string -> Result<Mailbox, string>)
    requires ParseAll(p, parse).Err?
    ensures ParseAll(p + q, parse) == ParseAll(p, parse)
  {
    ParseAllAppend(p, q, parse);
  }

  /** Once the groups seen so far hold an address that does not parse, the
      later groups cannot change the outcome: it is that first failure. */
  lemma PrefixFailureIsFinal(direction: string, groups: seq<Config.Recipients>, k: nat,
                             parse: string -> Result<Mailbox, string>)
    requires k <= |groups|
    requires ParseAll(Resolve(direction, groups[..k]), parse).Err?
    ensures ParseAll(Resolve(direction, groups), parse) == ParseAll(Resolve(direction, groups[..k]), parse)
  {
    assert groups == groups[..k] + groups[k..];
    ResolveAppend(direction, groups[..k], groups[k..]);
    ParseAllFailureIsFinal(Resolve(direction, groups[..k]), Resolve(direction, groups[k..]), parse);
  }
}

=== FILE: routes.dfy ===
/** The HTTP routes (src/api/routes.rs): the JSON route, the multipart
    route's fold over form fields, and the mapping of send results to
    responses. The multipart stream is a finite sequence of parts, each
    field a sequence of chunks; `lossy` stands for `String::from_utf8_lossy`. */
module Routes {
  import opened Base
  import opened Http
  import Errors
  import Config
  import Mailer

  /** One item of a field's chunk stream: bytes, or a stream error. */
  datatype Chunk = Chunk(bytes: seq<byte>) | ChunkError(message: string)

  /** A form field: its content-disposition name and filename, and its chunks. */
  datatype Field = Field(name: Option<string>, filename: Option<string>, chunks: seq<Chunk>)

  /** One item of the multipart stream: a field, or a stream error. */
  datatype Part = Part(field: Field) | PartError(message: string)

  datatype Attachment = Attachment(filename: string, bytes: seq<byte>)

  /** The state the route's loop keeps. */
  datatype Form = Form(mail: string, subject: string, text: string, files: seq<Attachment>)

  const EmptyForm: Form := Form("", "", "", [])

  /** The five-argument message the multipart route builds: the fields of
      `Msg` plus the collected files. */
  datatype Upload = Upload(
    direction: Option<string>,
    mail: string,
    subject: string,
    text: string,
    files: Option<seq<Attachment>>)

  const SendSuccess: string := "Send success!"
  const UnknownFormPrefix: string := "Unknown form data: "

  /** The field names whose first chunk is read as text. */
  predicate IsTextKey(n: string)
  {
    n == "mail" || n == "subject" || n == "text"
  }

  /** One `field.try_next().await?`: nothing, the first chunk, or its error. */
  function FirstChunk(chunks: seq<Chunk>): (r: Result<Option<seq<byte>>, string>)
  {
    if |chunks| == 0 then Ok(None)
    else match chunks[0]
      case ChunkError(m) => Err(m)
      case Chunk(b) => Ok(Some(b))
  }

  /** The file loop: all chunks' bytes in order, or the first chunk error. */
  function ReadAll(chunks: seq<Chunk>): (r: Result<seq<byte>, string>)
    ensures r.Ok? <==> forall i :: 0 <= i < |chunks| ==> chunks[i].Chunk?
  {
    if |chunks| == 0 then Ok([])
    else match chunks[0]
      case ChunkError(m) => Err(m)
      case Chunk(b) =>
        match ReadAll(chunks[1..])
        case Err(m) =>
          assert forall i :: 0 <= i < |chunks[1..]| ==> chunks[1..][i] == chunks[i + 1];
          Err(m)
        case Ok(rest) => Ok(b + rest)
  }

  /** The bytes of a file field are every chunk's bytes, in order: the
      buffer of a field split anywhere is the two halves' buffers joined. */
  lemma {:induction false} ReadAllAppend(a: seq<Chunk>, b: seq<Chunk>)
    requires ReadAll(a).Ok? && ReadAll(b).Ok?
    ensures ReadAll(a + b) == Ok(ReadAll(a).value + ReadAll(b).value)
  {
    if |a| == 0 {
      assert a + b == b;
      assert ReadAll(a).value + ReadAll(b).value == ReadAll(b).value;
    } else {
      assert (a + b)[0] == a[0];
      assert (a + b)[1..] == a[1..] + b;
      ReadAllAppend(a[1..], b);
      assert a[0].bytes + (ReadAll(a[1..]).value + ReadAll(b).value)
          == (a[0].bytes + ReadAll(a[1..]).value) + ReadAll(b).value;
    }
  }

  /** A single chunk's buffer is exactly its bytes; with `ReadAllAppend`
      this fixes every buffer as its chunks' bytes joined in order. */
  lemma ReadAllSingle(b: seq<byte>)
    ensures ReadAll([Chunk(b)]) == Ok(b)
  {
    assert [Chunk(b)][1..] == [];
    assert b + [] == b;
  }

  /** The error a single part ends the request with, if any. */
  function Fault(p: Part): (f: Option<Errors.ServiceError>)
  {
    match p
    case PartError(m) => Some(Errors.BadRequest(m))
    case Part(f) =>
      match f.name
      case None => None
      case Some(n) =>
        if IsTextKey(n) then
          (if FirstChunk(f.chunks).Err? then Some(Errors.BadRequest(FirstChunk(f.chunks).error)) else None)
        else if f.filename.Some? then
          (if ReadAll(f.chunks).Err? then Some(Errors.BadRequest(ReadAll(f.chunks).error)) else None)
        else Some(Errors.Conflict(UnknownFormPrefix + n))
  }

  /** The text a part assigns to `key`, if it assigns one. */
  function Setting(p: Part, key: string, lossy: seq<byte> -> string): (v: Option<string>)
  {
    if p.Part? && p.field.name == Some(key) && FirstChunk(p.field.chunks).Ok?
       && FirstChunk(p.field.chunks).value.Some?
    then Some(lossy(FirstChunk(p.field.chunks).value.value))
    else None
  }

  /** The file entry a part contributes: one for a readable field with a
      name other than the text keys and with a filename, none otherwise. */
  function FileOf(p: Part): (files: seq<Attachment>)
  {
    if p.Part? && p.field.name.Some? && !IsTextKey(p.field.name.value) && p.field.filename.Some?
       && ReadAll(p.field.chunks).Ok?
    then [Attachment(p.field.filename.value, ReadAll(p.field.chunks).value)]
    else []
  }

  /** The value the last part that sets `key` gives it. */
  function TextValue(ps: seq<Part>, key: string, lossy: seq<byte> -> string): (v: Option<string>)
  {
    if |ps| == 0 then None
    else match TextValue(ps[1..], key, lossy)
      case Some(v) => Some(v)
      case None => Setting(ps[0], key, lossy)
  }

  /** Every file entry, in arrival order. */
  function Attachments(ps: seq<Part>): (files: seq<Attachment>)
  {
    if |ps| == 0 then [] else FileOf(ps[0]) + Attachments(ps[1..])
  }

  /** One iteration of the route's `while let` loop. */
  function Step(form: Form, f: Field, lossy: seq<byte> -> string): (r: Result<Form, Errors.ServiceError>)
  {
    match f.name
    case None => Ok(form)
    case Some(n) =>
      if IsTextKey(n) then
        match FirstChunk(f.chunks)
        case Err(m) => Err(Errors.FromForeign(Errors.MultipartError(m)))
        case Ok(None) => Ok(form)
        case Ok(Some(b)) =>
          if n == "mail" then Ok(form.(mail := lossy(b)))
          else if n == "subject" then Ok(form.(subject := lossy(b)))
          else Ok(form.(text := lossy(b)))
      else match f.filename
        case Some(fname) =>
          (match ReadAll(f.chunks)
           case Err(m) => Err(Errors.FromForeign(Errors.MultipartError(m)))
           case Ok(buffer) => Ok(form.(files := form.files + [Attachment(fname, buffer)])))
        case None => Err(Errors.Conflict(UnknownFormPrefix + n))
  }

  /** The loop of `put_mail_attachment` from a given state. */
  function IntakeFrom(form: Form, ps: seq<Part>, lossy: seq<byte> -> string): (r: Result<Form, Errors.ServiceError>)
    decreases |ps|
  {
    if |ps| == 0 then Ok(form)
    else match ps[0]
      case PartError(m) => Err(Errors.FromForeign(Errors.MultipartError(m)))
      case Part(f) =>
        match Step(form, f, lossy)
        case Err(e) => Err(e)
        case Ok(form') => IntakeFrom(form', ps[1..], lossy)
  }

  /** The whole loop, from empty text fields and no files. */
  function Intake(ps: seq<Part>, lossy: seq<byte> -> string): (r: Result<Form, Errors.ServiceError>)
  {
    IntakeFrom(EmptyForm, ps, lossy)
  }

  /** One iteration fails exactly with the part's fault, and otherwise
      applies the part's text setting and file entry. */
  lemma StepMatchesReference(form: Form, f: Field, lossy: seq<byte> -> string)
    ensures Step(form, f, lossy).Err? <==> Fault(Part(f)).Some?
    ensures Step(form, f, lossy).Err? ==> Fault(Part(f)) == Some(Step(form, f, lossy).error)
    ensures Step(form, f, lossy).Ok? ==>
              Step(form, f, lossy).value ==
                Form(Setting(Part(f), "mail", lossy).GetOr(form.mail),
                     Setting(Part(f), "subject", lossy).GetOr(form.subject),
                     Setting(Part(f), "text", lossy).GetOr(form.text),
                     form.files + FileOf(Part(f)))
  {
  }

  /** The loop against the reference definitions: it fails exactly when some
      part is faulty, with the first fault; otherwise each text field holds
      the last value set for it (or its starting value) and the files are
      the starting files followed by every file entry in arrival order. */
  lemma {:induction false} IntakeFromMatchesReference(form: Form, ps: seq<Part>, lossy: seq<byte> -> string)
    decreases |ps|
    ensures IntakeFrom(form, ps, lossy).Ok? <==> forall i :: 0 <= i < |ps| ==> Fault(ps[i]).None?
    ensures IntakeFrom(form, ps, lossy).Err? ==>
              exists i :: 0 <= i < |ps| && Fault(ps[i]) == Some(IntakeFrom(form, ps, lossy).error)
                          && forall j :: 0 <= j < i ==> Fault(ps[j]).None?
    ensures IntakeFrom(form, ps, lossy).Ok? ==>
              && IntakeFrom(form, ps, lossy).value.mail == TextValue(ps, "mail", lossy).GetOr(form.mail)
              && IntakeFrom(form, ps, lossy).value.subject == TextValue(ps, "subject", lossy).GetOr(form.subject)
              && IntakeFrom(form, ps, lossy).value.text == TextValue(ps, "text", lossy).GetOr(form.text)
              && IntakeFrom(form, ps, lossy).value.files == form.files + Attachments(ps)
  {
    if |ps| > 0 {
      var tail := ps[1..];
      assert forall i :: 0 <= i < |tail| ==> tail[i] == ps[i + 1];
      match ps[0]
      case PartError(m) =>
        assert Fault(ps[0]).Some?;
      case Part(f) =>
        StepMatchesReference(form, f, lossy);
        match Step(form, f, lossy)
        case Err(e) =>
        case Ok(form') =>
          IntakeFromMatchesReference(form', tail, lossy);
          if IntakeFrom(form', tail, lossy).Err? {
            var i :| 0 <= i < |tail| && Fault(tail[i]) == Some(IntakeFrom(form', tail, lossy).error)
                     && forall j :: 0 <= j < i ==> Fault(tail[j]).None?;
            assert Fault(ps[i + 1]) == Some(IntakeFrom(form, ps, lossy).error);
          }
          if forall i :: 0 <= i < |tail| ==> Fault(tail[i]).None? {
            assert forall i :: 0 <= i < |ps| ==> Fault(ps[i]).None? by {
              forall i | 0 <= i < |ps|
                ensures Fault(ps[i]).None?
              {
                if i > 0 {
                  assert ps[i] == tail[i - 1];
                }
              }
            }
          }
          if IntakeFrom(form, ps, lossy).Ok? {
            assert form'.files + Attachments(tail) == form.files + (FileOf(ps[0]) + Attachments(tail));
          }
    }
  }

  /** `TextValue` is the value of the last setter: some part sets it and no
      later part sets the key again. */
  lemma {:induction false} TextValueIsLastSetting(ps: seq<Part>, key: string, lossy: seq<byte> -> string)
    ensures TextValue(ps, key, lossy).None? <==> forall i :: 0 <= i < |ps| ==> Setting(ps[i], key, lossy).None?
    ensures TextValue(ps, key, lossy).Some? ==>
              exists i :: 0 <= i < |ps| && Setting(ps[i], key, lossy) == TextValue(ps, key, lossy)
                          && forall j :: i < j < |ps| ==> Setting(ps[j], key, lossy).None?
  {
    if |ps| > 0 {
      var tail := ps[1..];
      assert forall i :: 0 <= i < |tail| ==> tail[i] == ps[i + 1];
      TextValueIsLastSetting(tail, key, lossy);
      if TextValue(tail, key, lossy).Some? {
        var i :| 0 <= i < |tail| && Setting(tail[i], key, lossy) == TextValue(tail, key, lossy)
                 && forall j :: i < j < |tail| ==> Setting(tail[j], key, lossy).None?;
        assert Setting(ps[i + 1], key, lossy) == TextValue(ps, key, lossy);
        assert forall j :: i + 1 < j < |ps| ==> Setting(ps[j], key, lossy).None? by {
          forall j | i + 1 < j < |ps|
            ensures Setting(ps[j], key, lossy).None?
          {
            assert ps[j] == tail[j - 1];
          }
        }
      } else {
        assert forall j :: 0 < j < |ps| ==> Setting(ps[j], key, lossy).None? by {
          forall j | 0 < j < |ps|
            ensures Setting(ps[j], key, lossy).None?
          {
            assert ps[j] == tail[j - 1];
          }
        }
      }
    }
  }

  /** File entries of a stream split anywhere are the two halves' entries joined. */
  lemma {:induction false} AttachmentsAppend(a: seq<Part>, b: seq<Part>)
    ensures Attachments(a + b) == Attachments(a) + Attachments(b)
  {
    if |a| == 0 {
      assert a + b == b;
    } else {
      assert (a + b)[0] == a[0];
      assert (a + b)[1..] == a[1..] + b;
      AttachmentsAppend(a[1..], b);
      assert FileOf(a[0]) + (Attachments(a[1..]) + Attachments(b))
          == (FileOf(a[0]) + Attachments(a[1..])) + Attachments(b);
    }
  }

  /** A successful intake: text fields default to "" and hold the last
      value sent for them; the files are exactly the file entries, in order. */
  lemma IntakeResult(ps: seq<Part>, lossy: seq<byte> -> string)
    requires Intake(ps, lossy).Ok?
    ensures Intake(ps, lossy).value.mail == TextValue(ps, "mail", lossy).GetOr("")
    ensures Intake(ps, lossy).value.subject == TextValue(ps, "subject", lossy).GetOr("")
    ensures Intake(ps, lossy).value.text == TextValue(ps, "text", lossy).GetOr("")
    ensures Intake(ps, lossy).value.files == Attachments(ps)
  {
    IntakeFromMatchesReference(EmptyForm, ps, lossy);
    assert [] + Attachments(ps) == Attachments(ps);
  }

  /** A named field that is neither a text key nor a file ends the request
      with `Conflict("Unknown form data: …")` unless an earlier part failed. */
  lemma UnknownFieldIsConflict(ps: seq<Part>, k: nat, lossy: seq<byte> -> string)
    requires k < |ps| && ps[k].Part? && ps[k].field.name.Some?
    requires !IsTextKey(ps[k].field.name.value) && ps[k].field.filename.None?
    requires forall j :: 0 <= j < k ==> Fault(ps[j]).None?
    ensures Intake(ps, lossy) == Err(Errors.Conflict(UnknownFormPrefix + ps[k].field.name.value))
  {
    IntakeFromMatchesReference(EmptyForm, ps, lossy);
    var e := Intake(ps, lossy).error;
    var i :| 0 <= i < |ps| && Fault(ps[i]) == Some(e) && forall j :: 0 <= j < i ==> Fault(ps[j]).None?;
    assert i == k;
  }

  /** The message `send` receives from an upload; `send` takes no files. */
  function ToMsg(u: Upload): (m: Mailer.Msg)
  {
    Mailer.Msg(u.direction, u.mail, u.subject, u.text)
  }

  /** Both routes: success is the literal text, any send error becomes a 500. */
  function SendResult(r: Result<(), Errors.ServiceError>): (out: Result<string, Errors.ServiceError>)
  {
    match r
    case Ok(_) => Ok(SendSuccess)
    case Err(_) => Err(Errors.InternalServerError)
  }

  /** `post_mail`: the direction is the path segment, whatever the body held. */
  function PostMail(direction: string, body: Mailer.Msg, mail: Config.Mail, env: Mailer.Env): (r: Result<string, Errors.ServiceError>)
  {
    SendResult(Mailer.Send(body.(direction := Some(direction)), mail, env))
  }

  /** The JSON route's direction always comes from the path, and its outcome
      is the success text or a 500 and nothing else. */
  lemma PostMailDirectionFromPath(direction: string, body: Mailer.Msg, spoofed: Option<string>, mail: Config.Mail, env: Mailer.Env)
    ensures PostMail(direction, body, mail, env) == PostMail(direction, body.(direction := spoofed), mail, env)
    ensures PostMail(direction, body, mail, env) == Ok(SendSuccess) <==>
              Mailer.Send(body.(direction := Some(direction)), mail, env).Ok?
    ensures PostMail(direction, body, mail, env) != Ok(SendSuccess) ==>
              PostMail(direction, body, mail, env) == Err(Errors.InternalServerError)
  {
    assert body.(direction := Some(direction)) == body.(direction := spoofed).(direction := Some(direction));
  }

  /** `put_mail_attachment`: the form fold, then a routed message built
      from the path direction and the form, then `send`. */
  function PutMailAttachment(direction: string, ps: seq<Part>, lossy: seq<byte> -> string,
                             mail: Config.Mail, env: Mailer.Env): (r: Result<string, Errors.ServiceError>)
  {
    var form :- Intake(ps, lossy);
    var upload := Upload(Some(direction), form.mail, form.subject, form.text, Some(form.files));
    SendResult(Mailer.Send(ToMsg(upload), mail, env))
  }

  /** A failed intake is the route's answer as is, and no transport is
      involved; a successful one sends a routed message built from the form,
      and a send failure becomes a 500. */
  lemma PutMailAttachmentOutcome(direction: string, ps: seq<Part>, lossy: seq<byte> -> string,
                                 mail: Config.Mail, env: Mailer.Env, env': Mailer.Env)
    ensures Intake(ps, lossy).Err? ==>
              && PutMailAttachment(direction, ps, lossy, mail, env) == Err(Intake(ps, lossy).error)
              && PutMailAttachment(direction, ps, lossy, mail, env) == PutMailAttachment(direction, ps, lossy, mail, env')
    ensures Intake(ps, lossy).Ok? ==>
              var form := Intake(ps, lossy).value;
              var msg := Mailer.Msg(Some(direction), form.mail, form.subject, form.text);
              && (Mailer.Send(msg, mail, env).Ok? ==> PutMailAttachment(direction, ps, lossy, mail, env) == Ok(SendSuccess))
              && (Mailer.Send(msg, mail, env).Err? ==>
                    PutMailAttachment(direction, ps, lossy, mail, env) == Err(Errors.InternalServerError))
  {
  }

  /** The HTTP response of a route result: 200 with the text, or the error's response. */
  function Respond(r: Result<string, Errors.ServiceError>): (resp: Response)
  {
    match r
    case Ok(s) => Response(200, TextPlainUtf8, s)
    case Err(e) => Errors.ErrorResponse(e)
  }

  /** Whatever happens in `send`, the JSON route answers 200 "Send success!"
      or 500 with the fixed apology; it never leaks a send error's text. */
  lemma PostMailResponses(direction: string, body: Mailer.Msg, mail: Config.Mail, env: Mailer.Env)
    ensures var resp := Respond(PostMail(direction, body, mail, env));
            || resp == Response(200, TextPlainUtf8, SendSuccess)
            || (resp.status == 500 && Unquote(resp.body) == Some(Errors.InternalMessage))
  {
  }

  /** The multipart route answers 200 "Send success!", a 500 with the fixed
      apology, a 400 carrying a multipart stream error, or a 409 naming an
      unknown field; only the last two reveal anything about the request. */
  lemma PutMailAttachmentResponses(direction: string, ps: seq<Part>, lossy: seq<byte> -> string,
                                   mail: Config.Mail, env: Mailer.Env)
    ensures var resp := Respond(PutMailAttachment(direction, ps, lossy, mail, env));
            || resp == Response(200, TextPlainUtf8, SendSuccess)
            || (resp.status == 500 && Unquote(resp.body) == Some(Errors.InternalMessage))
            || (resp.status == 400 && exists i :: 0 <= i < |ps| && Fault(ps[i]) == Some(Errors.BadRequest(Unquote(resp.body).value)))
            || (resp.status == 409 && exists i :: 0 <= i < |ps| && Fault(ps[i]) == Some(Errors.Conflict(Unquote(resp.body).value)))
  {
    IntakeFromMatchesReference(EmptyForm, ps, lossy);
  }
}
